=== FILE: README.md ===
# Subtitle collector: a Dafny model of its core

The subtitle collector takes a YouTube URL and does the following:

- resolves the video id;
- fetches the video's metadata;
- skips videos it has already stored;
- downloads the English auto-generated captions as a WebVTT file;
- flattens the captions into one line of plain text;
- stores that text twice:
  - as a record keyed by (video id, title);
  - as a row of a per-day CSV archive.

Two versions of this pipeline exist:

- the web handler `index` in `app.py`, which answers every failure with a message;
- `ProcessYoutube` in `src/youtube.py`, together with the storage classes of `src/storage.py`, which raises instead and writes only the record.

The model is written as pure functions over immutable data. The outside world is an input:

- the download tool's exit status, stderr and metadata;
- the caption directory's listing and file contents;
- the clock;
- whether each store call fails.

Modules follow the program's structure:

| module | file | what it models |
|---|---|---|
| `Wrappers` | wrappers.dfy | `Option` and `Result` |
| `Strings` | strings.dfy | the Python string operations the core uses: `strip`, `' '.join`, `.replace`, `startswith`/`endswith`, `in` |
| `VideoId` | video_id.dfy | `extract_video_id`: the two `re.search` patterns, leftmost match, greedy capture |
| `Captions` | captions.dfy | `process_vtt_content`: line iteration, the `-->` filter, `<[^>]+>` removal, `strip`, the join; both variants |
| `CaptionFile` | caption_file.dfy | `extract_subtitles` after the tool has run: exit status, expected name, directory fallback; both variants |
| `Archive` | archive.dfy | `save_to_s3` / `S3.save_to`: row format, day key, read-append-write of the day object |
| `Records` | records.dfy | `check_video_exists_in_dynamodb` / `save_to_dynamodb`: the record table keyed by (id, title) |
| `Flow` | flow.dfy | the inputs a submission sees and the external steps, shared by both pipelines |
| `Submit` | submit.dfy | `index` in app.py |
| `ProcessYoutube` | process_youtube.dfy | `ProcessYoutube.__init__` in src/youtube.py |

Behaviour of the code that a reader might not expect:

- **URL shape.** The watch-page pattern needs `v=` to be the first query parameter. A URL such as `watch?list=…&v=ID` resolves to nothing (`VideoId.WatchNeedsVFirst`).
- **Which occurrence counts.** The id comes from the first position where the literal occurs *and* is followed by an allowed character, not from the first occurrence of the literal.
- **Markup in the joined text.** Each caption piece is free of `<[^>]+>` matches, but the joined text need not be. A piece ending in `<` and the next starting with `>` form one around the joining space (`Captions.JoinedPiecesCanHoldTag`).
- **The `-->` filter.** It sees the line before markup is removed, so `-<b>->` survives as `-->` (`Captions.ArrowSplitByMarkupSurvives`).
- **Blank lines.** They are kept as empty pieces, so the joined text can end in a space (`Captions.WorkedExample`).
- **Record key.** Records are keyed by the pair (video id, title), so the same video under a new title is a new record.
- **Empty metadata.** src/youtube.py accepts an empty metadata object, where app.py rejects it.

## Model

| member | source | states |
|---|---|---|
| `Strings.StripRemovesOuterSpace` | app.py:93 | `line.strip()` removes exactly the leading and trailing whitespace (Python's 29 `str.isspace` characters) and keeps the middle as a contiguous slice |
| `Strings.StripIgnoresTrailingSpace` | app.py:93 | a trailing whitespace character, such as the line's newline, does not change the stripped text |
| `Strings.StripEmptyIff` | app.py:93 | a line strips to the empty string exactly when every character is whitespace |
| `Strings.Join` | app.py:97 | `' '.join` of n ≥ 1 pieces has the pieces' total length plus n − 1 separators and starts with the first piece; of no pieces it is empty |
| `Strings.JoinEmptyIff` | app.py:97 | the join is empty exactly when there are no pieces or a single empty one |
| `Strings.ReplaceCharPointwise` | app.py:100 | `.replace('\n', ' ')` keeps the length and changes exactly the newline positions |
| `VideoId.RunLength` | app.py:25-26 | the greedy `[^&]+` / `[^?\n]+` run is the longest prefix free of stop characters: it ends at the first stop character or at the end |
| `VideoId.FirstMatch` | app.py:29 | `re.search` finds the leftmost position where the pattern matches; no earlier position matches |
| `VideoId.Search` | app.py:29-31 | no group exactly when the pattern matches nowhere; otherwise group 1 follows the literal at the leftmost match, is non-empty, holds no stop character and cannot be extended |
| `VideoId.ExtractVideoId` | app.py:23-32 | the watch form is tried first and wins whenever it matches; the short form is used only when the watch form matches nowhere; `None` exactly when neither matches; the id is never empty |
| `VideoId.SearchAfterPrefix` | app.py:29-31 | a URL made of a prefix that cannot start the literal, the literal, an id and a tail beginning with a stop character yields exactly that id |
| `VideoId.NoMatchWithoutLetter` | app.py:28-32 | a URL lacking a letter of the literal does not match that pattern |
| `VideoId.WatchIdIgnoresTrailingParameters` | app.py:25 | `https://www.youtube.com/watch?v=ID` resolves to `ID`, with or without `&…` after it |
| `VideoId.WatchNeedsVFirst` | app.py:25 | a watch URL whose query does not start with `v=` (and holds no `y`) resolves to nothing |
| `VideoId.ShortLinkResolves` | app.py:26-31 | a `youtu.be/ID` link, with or without a `?…` query, resolves to `ID` whenever the watch form matches nowhere in it |
| `VideoId.ShortLinkWithoutLetter` | app.py:26-31 | a short link that lacks some letter of the watch form (and not of the short form) resolves to its `ID` |
| `VideoId.WatchExample` | app.py:23-32 | `https://www.youtube.com/watch?v=abc123&list=xyz` resolves to `abc123` |
| `VideoId.ShortExample` | app.py:23-32 | `https://youtu.be/abc123?t=10` resolves to `abc123` |
| `VideoId.ShortExampleWithW` | app.py:23-32 | `https://youtu.be/dQw4w9WgXcQ`, whose id holds a `w`, resolves to `dQw4w9WgXcQ` |
| `VideoId.ParameterOrderMatters` | app.py:25 | `…/watch?list=PL1&v=abc123` resolves to nothing |
| `Captions.SplitLinesSpec` | app.py:88-89 | iterating over the file yields lines that concatenate back to the text, each ending in its newline, with only the last possibly unterminated |
| `Captions.SplitLinesFirst` | app.py:89 | a newline-terminated line is yielded on its own, followed by the lines of the rest |
| `Captions.SplitOneLine` | app.py:89 | a text that is a single line yields just that line |
| `Captions.SplitTwoLines` | app.py:89 | two lines, the first newline-terminated, are yielded as themselves |
| `Captions.SplitThreeLines` | app.py:89 | three newline-terminated lines are yielded as themselves |
| `Captions.TagLength` | app.py:92 | a `<[^>]+>` match at the head runs from `<` over at least one character to the first `>`; a `<` starts no match only when no `>` follows or `>` comes at once |
| `Captions.StripTags` | app.py:92 | `re.sub('<[^>]+>', '', line)` never lengthens the line and introduces no character |
| `Captions.StripTagsLeavesNoTag` | app.py:92 | after the substitution no `<[^>]+>` match remains |
| `Captions.StripTagsKeepsTagFree` | app.py:92 | a line without a match is left unchanged |
| `Captions.StripTagsIdempotent` | app.py:92 | applying the substitution twice is the same as once |
| `Captions.StripTagsPlainPrefix` | app.py:92 | text without `<` passes through the substitution unchanged, in front of whatever follows |
| `Captions.StripTagsTagPrefix` | app.py:92 | a complete tag at the head is removed whole |
| `Captions.StripTagsAroundTag` | app.py:92 | plain text, a tag, then more: the tag goes and the plain text stays |
| `Captions.CleanIgnoresTerminator` | app.py:92-93 | a line's newline makes no difference to its piece |
| `Captions.CleanHasNoNewline` | app.py:89-93 | a piece never holds a newline |
| `Captions.CleanIsTagFree` | app.py:92-93 | a piece holds no `<[^>]+>` match |
| `Captions.CleanUntagged` | app.py:92-93 | text with no tag and no outer whitespace is its own piece |
| `Captions.CleanTaggedRuns` | app.py:92-93 | a line of two tag-opened runs of plain text loses the tags, its newline and the outer whitespace |
| `Captions.KeptMembers` | app.py:89-91 | a line reaches the pieces exactly when it is one of the file's lines and holds no `-->` |
| `Captions.KeptAppend` | app.py:89-91 | the `-->` filter keeps the lines in file order |
| `Captions.Pieces` | app.py:92-93 | one piece per kept line |
| `Captions.Normalise` | app.py:97 | the joined text's length is the pieces' total length plus one space between each pair; it is empty exactly when no line is kept or the only kept line cleans to nothing |
| `Captions.NormalisedIsOneLine` | app.py:85-97 | the normalised captions never contain a newline |
| `Captions.PiecesAreTagFree` | app.py:92-93 | every piece is free of markup matches |
| `Captions.NormaliseTwoKept` | app.py:93-97 | two kept lines give their pieces joined by one space |
| `Captions.NormaliseSkipsCue` | app.py:90-91 | a cue-timing line contributes nothing |
| `Captions.OneCaptionLine` | app.py:85-97 | a file of one line without `-->` normalises to that line's piece |
| `Captions.TwoCaptionLines` | app.py:85-97 | a file of two lines without `-->` gives the two pieces joined by a space |
| `Captions.CueCaptionBlank` | app.py:85-97 | a cue line, a caption line and a blank line give the caption's piece, a space, and the blank line's empty piece |
| `Captions.CaptionLineExample` | app.py:92-93 | the line `<b>Hello</b> world` becomes `Hello world` |
| `Captions.BlankLineIsEmptyPiece` | app.py:90-93 | a blank line passes the `-->` filter and becomes an empty piece |
| `Captions.WorkedExample` | app.py:85-97 | a cue line, `<b>Hello</b> world` and a blank line normalise to `Hello world ` with a trailing space |
| `Captions.WorkedExampleText` | app.py:85-97 | the same, with the file text written out as one literal |
| `Captions.BlankLinesGiveSpace` | app.py:93-97 | two blank lines give a single space |
| `Captions.ShortLinesJoin` | app.py:85-97 | two short plain lines come out as themselves, joined by a space |
| `Captions.PlainAroundTag` | app.py:90-97 | a kept line of plain text around one tag normalises to the stripped plain text |
| `Captions.ArrowSplitByMarkupSurvives` | app.py:90-93 | `-` + tag + `->` passes the `-->` filter yet normalises to `-->` |
| `Captions.TagAcrossSpace` | app.py:97 | a piece ending in `<` joined to one starting with `>` contains a match |
| `Captions.JoinedPiecesCanHoldTag` | app.py:92-97 | the lines `a<` and `>b` give `a< >b`, which still holds a markup match that the substitution would remove |
| `Captions.ProcessVtt` | src/youtube.py:61-79 | a missing file and an empty result are the two distinct errors; the empty result occurs exactly when no line is kept or the only kept line cleans to nothing; otherwise the result is the non-empty normalised text |
| `Captions.VariantsAgree` | app.py:85-97 | app.py's string is non-empty exactly when src/youtube.py succeeds, and is then the same text |
| `CaptionFile.ExpectedNameOfPlainId` | app.py:61-76 | for an id without `%`, the expected file is `{id}.en.vtt` |
| `CaptionFile.FirstQualifying` | app.py:80-82 | the fallback picks the first listed name that starts with the id and ends in `.vtt`; none qualifies exactly when it answers nothing |
| `CaptionFile.Locate` | src/youtube.py:35-59 | a non-zero exit raises with the tool's stderr and nothing else does; the expected name wins when present; "not found" exactly when the tool succeeded, the expected name is absent and no entry qualifies; when the tool succeeded and the expected name is absent, the first qualifying entry of the listing is returned whenever there is one; the only failures are the tool's stderr and "not found" |
| `CaptionFile.LocatedNameQualifies` | app.py:76-82 | for an id without `%`, whichever file is chosen starts with the id and ends in `.vtt` |
| `CaptionFile.ToolFailureIgnoresDirectory` | app.py:72-74 | a failed run is reported whatever the directory holds |
| `CaptionFile.ExpectedNameBeatsOrder` | app.py:76-82 | the listing order matters only when the expected name is absent |
| `CaptionFile.LocateApp` | app.py:60-83 | exactly one of path and error is present; a non-zero exit gives the tool's stderr as the error |
| `CaptionFile.LocateVariantsAgree` | src/youtube.py:48-59 | the app.py and src/youtube.py variants choose the same file and fail in the same cases, with the same error text for a tool failure |
| `CaptionFile.SilentFailureHasEmptyError` | app.py:72-74 | a failed run with nothing on stderr returns no path and an error that is present but empty |
| `Archive.Flatten` | src/storage.py:21 | `content.replace('\n', ' ')` keeps the length and turns exactly the newlines into spaces |
| `Archive.RowRoundTrip` | app.py:101 | a row of four fields without double quotes reads back as exactly those four fields |
| `Archive.QuotedFieldIsLost` | app.py:101 | a field holding a double quote does not read back, because nothing is escaped |
| `Archive.DayKeyIdentifiesDay` | app.py:102 | for `%Y-%m-%d %H:%M:%S` timestamps the object is `YYYY-MM-DD.csv`, and two timestamps share an object exactly when they share the date |
| `Archive.DayKeyOfShortDatetime` | app.py:102 | a timestamp of at most ten characters names its object in full (Python slicing) |
| `Archive.Merge` | app.py:104-108 | the written object starts with the existing object, or with the header for a new day, and ends with the new row |
| `Archive.AppendRow` | app.py:102-109 | the write succeeds exactly when neither read nor put fails, and a read fault is reported as such; only the day object changes; it becomes exactly its old content (or the header, when it did not exist) followed by the row |
| `Archive.SaveToS3` | app.py:99-109 | on success the bucket differs only in the day object, which becomes its old content (or the header) followed by the row embedding the content as given; it fails exactly on a store fault |
| `Archive.S3SaveTo` | src/storage.py:20-30 | on success the bucket differs only in the day object, which becomes its old content (or the header) followed by the row embedding the flattened content; it fails exactly on a store fault |
| `Archive.TwoAppendsToFreshDay` | app.py:103-109 | two saves on a new day give the header, the first row, then the second |
| `Archive.FlattenedRowIsOneLine` | src/storage.py:21-22 | with flattened content, a row has exactly one newline, its terminator |
| `Archive.RawContentCanSplitRow` | app.py:100-101 | embedding raw content with a newline splits the row across lines |
| `Archive.FlattenKeepsOneLine` | src/storage.py:21 | flattening changes nothing on content without newlines |
| `Archive.SaveVariantsAgreeOnOneLine` | app.py:99-101 | for newline-free content the two save variants write the same object |
| `Records.SaveFindsOnlyItsKey` | app.py:34-41 | after a save, a lookup finds what it found before and, when neither the write nor the lookup fails, the saved record's (id, title) key; nothing else |
| `Records.Save` | app.py:112-123 | a failed write leaves the table unchanged; otherwise the record is stored under its key, the key set grows by that key only, and every other record is kept |
| `Records.SaveThenExists` | src/storage.py:34-54 | a saved record is found again unless the lookup fails |
| `Records.LookupErrorLooksAbsent` | src/storage.py:47-54 | a failing lookup cannot be told apart from a missing record |
| `Records.TitleIsPartOfKey` | app.py:37 | the same video under another title is not found |
| `Records.SaveOverwrites` | src/storage.py:34-43 | a second save under the same key replaces the first |
| `Submit.Handle` | app.py:176-208 | the handler takes the external steps in order and stops at the first failure; nothing is written unless every check before the first write passes; when the download error is not reported it saves the record and reaches the archive; it answers completion exactly when everything passed and the archive did not fault, and then the bucket is the one the archive write produced; a missing URL, an unresolvable URL, failed metadata, a duplicate, a reported download error (carrying the tool's error text) and empty captions are each answered exactly when that stage is the first to fail; each failure reply records exactly the steps it took: none for the two URL checks, the metadata call for failed metadata, through the lookup for a duplicate, through the download for a reported download error, through the read for empty captions; a duplicate is reported only after a successful lookup; the bucket is unchanged whenever the reply is not completion |
| `Submit.OpaqueMetadataAccepted` | app.py:185-189 | metadata with no string field is still a non-empty object: the handler proceeds, under the default title |
| `Submit.LookupErrorNeverDuplicate` | app.py:192-193 | a failing lookup is never reported as a duplicate |
| `Submit.RecordWriteFailureSwallowed` | app.py:200-203 | a failed record write is swallowed: the archive is still written and the user sees success |
| `Submit.ArchiveFaultAfterRecord` | app.py:200-203 | an archive fault escapes as a server error after the record has been saved |
| `Submit.SecondSubmissionIsDuplicate` | app.py:189-193 | once a video is stored, submitting it again is answered as a duplicate |
| `Submit.SilentToolFailureCrashes` | app.py:195-199 | as written, a tool failure with empty stderr passes `if error:` and crashes on the missing path, writing nothing |
| `Submit.ToolFailureReported` | app.py:195-197 | with the error checked for presence, every tool failure is reported with its text and nothing is written |
| `Submit.IndexAgreesWithIntended` | app.py:195-199 | the handler as written and with the presence test differ exactly on a new video whose tool run fails with empty stderr |
| `Submit.ArchivedContentIsFlat` | app.py:199-202 | the archived captions hold no newline, so app.py's raw embedding writes the same object as src/storage.py's flattening |
| `ProcessYoutube.Run` | src/youtube.py:117-138 | the steps run in order and the first failure stops the pipeline with the table untouched; a duplicate stops before the download; `NoVideoId`, `MetadataFailed` and `Duplicated` each exactly when that stage is the first to fail; a download or caption failure carries the error the locate or read step produced; each failure comes after exactly the steps before its stage; on success the record was not already stored, its content is the normalised text of the caption file located for the id, it carries the id, the metadata title and thumbnail, the problem number and the clock, the content is non-empty and on one line, and the table is the result of saving it |
| `ProcessYoutube.DuplicateStopsBeforeDownload` | src/youtube.py:130-131 | a stored (id, title) raises the duplicate error after two steps and leaves the table alone |
| `ProcessYoutube.UntitledVideoGetsDefault` | src/youtube.py:126 | metadata without a title stores the default title `제목 없음` |
| `ProcessYoutube.EmptyMetadataAccepted` | src/youtube.py:124-126 | an empty metadata object is not a failure |
| `ProcessYoutube.SucceedsIffEveryStepDoes` | src/youtube.py:123-138 | the pipeline succeeds exactly when the id resolves, the metadata arrives, the video is new, the caption file is located and its captions are non-empty |
| `ProcessYoutube.PipelinesAgreeOnCaptions` | src/youtube.py:117-138 | whenever src/youtube.py stores a record (with non-empty metadata), app.py passes every check before its first write and stores the same captions |

## Left out

- The Flask app, the HTML form and the GET branch of `index` (app.py:130-174, app.py:207-211): presentation only.
- The `yt-dlp` subprocesses. Their exit status, stderr, metadata and the caption files they write are inputs. The command lines are not modelled.
- The metadata JSON is a map from field name to a value that is either a string or opaque. `json.loads` is not modelled. Every field is kept, so the `not video_info` test sees the object's real emptiness.
- Flow.Title and Flow.Thumbnail: a `title` or `thumbnail` that is present but not a string (`null`, a number) is stored by the source as that value (`None` for `null`); the model falls back to the default title and to no thumbnail, because record titles are strings throughout the model.
- boto3. The record table is a map from (id, title) to records, the archive bucket a map from object name to text, and each call's failure is an input flag.
- The clock (`get_kst`, app.py:125-128). The timestamp is an input; `Archive.DayKeyIdentifiesDay` assumes its `%Y-%m-%d %H:%M:%S` shape.
- `os.remove` of the caption file after reading (app.py:94), and the caption directory's creation (app.py:18-19): file-system side effects with no bearing on the result.
- `os.path.join` with the caption directory. Names are relative to that directory.
- Text decoding and newline translation. The caption file is the decoded text with `\n` line ends.
- `get_next_num` (app.py:43-46) is never called by the pipeline.
- `Youtube.search_bulk` (src/youtube.py:81-109) is a separate search feature outside the submission pipeline.
- The abstract `Storage` base class (src/storage.py:6-16) only declares `save_to`.
- Concurrency between requests: each submission is modelled on its own.
- src/youtube.py and src/storage.py cannot run as written. `ProcessYoutube` follows their evident intent, for these reasons:
  - storage.py imports `BUCKET_NAME` from app.py, which defines `bucket_name`;
  - `extract_video_id` is imported from src/utils.py, which does not define it (the app.py function is used);
  - `check_video_exists_in_dynamodb` is called without the title (the (id, title) lookup is used);
  - `save_to` is called with six arguments but takes four (the record carries the thumbnail and problem number);
  - `get_video_info` is called with the id instead of the URL (the metadata is an input either way).
- In src/youtube.py, a URL that resolves to no id fails at the metadata call (`NoVideoId`), where the real code would raise a `TypeError` from the subprocess call.
- CaptionFile.ExpectedNameOfPlainId: states the expected name only for ids without `%`. An id holding the placeholder text would also be rewritten by `.replace`. Ids from the two URL patterns can hold `%` only through percent-encoding.
- CaptionFile.LocatedNameQualifies: holds for ids without `%` only, for the same reason.
- Captions.StripTags: its contract states only length and character bounds. That no match remains and that it is the identity on match-free text are separate lemmas (`Captions.StripTagsLeavesNoTag`, `Captions.StripTagsKeepsTagFree`).
- Captions.Pieces: its contract states only the number of pieces. What each piece is follows from `Captions.KeptMembers` and the definition.
- VideoId.WatchNeedsVFirst: states the failure only for queries that hold no `y`. A `y` later in the query could start another `youtube.com/watch?v=` or `youtu.be/` match.

## Findings

| source | as written | input that shows it | evidently intended | confidence | as-written member | corrected member |
|---|---|---|---|---|---|---|
| app.py:195-199 | `if error:` checks the download error by truthiness | the tool exits non-zero with an empty stderr: `(None, "")` passes the test, and `process_vtt_content(None)` raises an uncaught `TypeError` | every tool failure is reported to the user with its error text | not executed | `Submit.SilentToolFailureCrashes` | `Submit.ToolFailureReported` |
| app.py:100-101 | `clean_content` is computed but the raw `content` is embedded in the row | content holding a newline puts a row across two lines of the CSV (latent: the pipeline's captions never hold one, `Submit.ArchivedContentIsFlat`) | the flattened content is embedded, as src/storage.py:21-22 does | not executed | `Archive.RawContentCanSplitRow` | `Archive.FlattenedRowIsOneLine` |

=== FILE: archive.dfy ===
/** The day-partitioned CSV archive (`save_to_s3` in app.py, `S3.save_to` in
    src/storage.py).

    Each saved video becomes one row of four double-quoted fields. Rows are
    collected per day in an object named after the first ten characters of the
    timestamp: the object is read, the row appended, and the whole object
    written back. A missing object starts with the header line. The fields are
    not escaped: the quote-doubling rule of section 2 of RFC 4180 is not
    applied. The bucket is a map from object key to object body; read and
    write faults other than a missing object are inputs. */
module Archive {
  import opened Wrappers
  import opened Strings

  const Header := "video_id,title,datetime,content\n"

  const Quote := '"'

  /** The pieces between the double quotes of a row: `"a","b","c","d"` is
      these nine pieces joined by `"`. */
  function RowParts(a: string, b: string, c: string, d: string): seq<string> {
    [[], a, ",", b, ",", c, ",", d, []]
  }

  /** One CSV row: four quoted fields, comma-separated, newline-terminated,
      with nothing escaped. */
  function Row(videoId: string, title: string, datetime: string, content: string): string {
    Join(RowParts(videoId, title, datetime, content), Quote) + "\n"
  }

  /** `f"{datetime[:10]}.csv"`: Python's slice takes the whole string when it
      is shorter than ten characters. */
  function DayKey(datetime: string): string {
    (if |datetime| <= 10 then datetime else datetime[..10]) + ".csv"
  }

  /** `content.replace('\n', ' ')`. */
  function Flatten(content: string): (r: string)
    ensures |r| == |content|
    ensures forall i | 0 <= i < |r| :: r[i] == if content[i] == '\n' then ' ' else content[i]
  {
    ReplaceCharPointwise(content, '\n', ' ');
    ReplaceAll(content, "\n", " ")
  }

  // ---------------------------------------------------------------------------
  // Rows read back

  /** The fields of a row, split at the quotes; `None` when the row does not
      have the four-field shape. */
  function ParseRow(row: string): (r: Option<(string, string, string, string)>)
    ensures r.Some? ==> Quote !in r.value.0 && Quote !in r.value.1 && Quote !in r.value.2 && Quote !in r.value.3
  {
    if row == [] || row[|row| - 1] != '\n' then None
    else
      var parts := Split(row[..|row| - 1], Quote);
      if |parts| == 9 && parts[0] == [] && parts[2] == "," && parts[4] == "," && parts[6] == "," && parts[8] == []
      then Some((parts[1], parts[3], parts[5], parts[7]))
      else None
  }

  /** Fields without a double quote are read back exactly. */
  lemma RowRoundTrip(a: string, b: string, c: string, d: string)
    requires Quote !in a && Quote !in b && Quote !in c && Quote !in d
    ensures ParseRow(Row(a, b, c, d)) == Some((a, b, c, d))
  {
    var p := RowParts(a, b, c, d);
    var row := Row(a, b, c, d);
    assert row[..|row| - 1] == Join(p, Quote);
    assert forall k | 0 <= k < |p| :: Quote !in p[k];
    SplitJoin(p, Quote);
  }

  /** Without escaping, a field holding a double quote is not read back. */
  lemma QuotedFieldIsLost(a: string, b: string, c: string, d: string)
    requires Quote in a || Quote in b || Quote in c || Quote in d
    ensures ParseRow(Row(a, b, c, d)) != Some((a, b, c, d))
  {
  }

  // ---------------------------------------------------------------------------
  // Day keys

  predicate IsDigit(c: char) {
    '0' <= c <= '9'
  }

  /** The `%Y-%m-%d %H:%M:%S` shape of the timestamps the pipeline produces. */
  predicate IsTimestamp(t: string) {
    && |t| == 19
    && (forall i | i in {0, 1, 2, 3, 5, 6, 8, 9, 11, 12, 14, 15, 17, 18} :: IsDigit(t[i]))
    && t[4] == '-' && t[7] == '-' && t[10] == ' ' && t[13] == ':' && t[16] == ':'
  }

  lemma CancelSuffix(x: string, y: string, z: string)
    requires x + z == y + z
    ensures x == y
  {
    assert |x| == |y|;
    assert forall i | 0 <= i < |x| :: x[i] == (x + z)[i] == (y + z)[i] == y[i];
  }

  /** Two timestamps share an archive object exactly when they fall on the
      same date. */
  lemma DayKeyIdentifiesDay(s: string, t: string)
    requires IsTimestamp(s) && IsTimestamp(t)
    ensures DayKey(s) == s[..10] + ".csv"
    ensures DayKey(s) == DayKey(t) <==> s[..10] == t[..10]
  {
    if DayKey(s) == DayKey(t) {
      CancelSuffix(s[..10], t[..10], ".csv");
    }
  }

  /** A timestamp shorter than ten characters names its object in full. */
  lemma DayKeyOfShortDatetime(t: string)
    requires |t| <= 10
    ensures DayKey(t) == t + ".csv"
  {
  }

  // ---------------------------------------------------------------------------
  // Appending to the bucket

  type Bucket = map<string, string>

  /** Faults of the object store other than a missing object. */
  datatype Faults = Faults(readFails: bool, putFails: bool)

  datatype StorageError = ReadFailed | WriteFailed

  /** The object written back: the header plus the row for a new day, else
      the existing content plus the row. */
  function Merge(existing: Option<string>, row: string): (r: string)
    ensures EndsWith(r, row)
    ensures StartsWith(r, existing.GetOr(Header))
    ensures |r| == |existing.GetOr(Header)| + |row|
  {
    match existing
    case None => Header + row
    case Some(e) => e + row
  }

  /** Read the day object (absent when missing), append, write back. Any
      fault aborts before the write. */
  function AppendRow(bucket: Bucket, key: string, row: string, faults: Faults): (r: Result<Bucket, StorageError>)
    ensures r.Success? <==> !faults.readFails && !faults.putFails
    ensures r == Failure(ReadFailed) <==> faults.readFails
    ensures r.Success? ==> r.value.Keys == bucket.Keys + {key}
    ensures r.Success? ==> forall k | k in bucket && k != key :: r.value[k] == bucket[k]
    ensures r.Success? && key in bucket ==> StartsWith(r.value[key], bucket[key]) && EndsWith(r.value[key], row)
    ensures r.Success? && key !in bucket ==> StartsWith(r.value[key], Header) && EndsWith(r.value[key], row)
    ensures r.Success? ==> r.value[key] == (if key in bucket then bucket[key] else Header) + row
  {
    if faults.readFails then Failure(ReadFailed)
    else
      var existing := if key in bucket then Some(bucket[key]) else None;
      if faults.putFails then Failure(WriteFailed)
      else Success(bucket[key := Merge(existing, row)])
  }

  /** app.py: the row embeds `content` as given. */
  function SaveToS3(bucket: Bucket, videoId: string, title: string, datetime: string, content: string,
                    faults: Faults): (r: Result<Bucket, StorageError>)
    ensures r.Success? <==> !faults.readFails && !faults.putFails
    ensures r.Success? ==>
      DayKey(datetime) in r.value && EndsWith(r.value[DayKey(datetime)], Row(videoId, title, datetime, content))
    ensures r.Success? ==> r.value == bucket[DayKey(datetime) :=
      (if DayKey(datetime) in bucket then bucket[DayKey(datetime)] else Header) + Row(videoId, title, datetime, content)]
  {
    AppendRow(bucket, DayKey(datetime), Row(videoId, title, datetime, content), faults)
  }

  /** src/storage.py: newlines in `content` become spaces first. */
  function S3SaveTo(bucket: Bucket, videoId: string, title: string, datetime: string, content: string,
                    faults: Faults): (r: Result<Bucket, StorageError>)
    ensures r.Success? <==> !faults.readFails && !faults.putFails
    ensures r.Success? ==>
      DayKey(datetime) in r.value && EndsWith(r.value[DayKey(datetime)], Row(videoId, title, datetime, Flatten(content)))
    ensures r.Success? ==> r.value == bucket[DayKey(datetime) :=
      (if DayKey(datetime) in bucket then bucket[DayKey(datetime)] else Header) + Row(videoId, title, datetime, Flatten(content))]
  {
    AppendRow(bucket, DayKey(datetime), Row(videoId, title, datetime, Flatten(content)), faults)
  }

  /** Two appends to a day with no object yet give the header, then the
      first row, then the second. */
  lemma TwoAppendsToFreshDay(bucket: Bucket, key: string, a: string, b: string)
    requires key !in bucket
    ensures var ok := Faults(false, false);
      var once := AppendRow(bucket, key, a, ok);
      once.Success? && AppendRow(once.value, key, b, ok).Success? &&
      AppendRow(once.value, key, b, ok).value[key] == Header + a + b
  {
  }

  // ---------------------------------------------------------------------------
  // Newlines inside rows

  /** With the content flattened, a row whose other fields hold no newline
      has exactly one, its terminator. */
  lemma FlattenedRowIsOneLine(a: string, b: string, c: string, content: string)
    requires '\n' !in a && '\n' !in b && '\n' !in c
    ensures var row := Row(a, b, c, Flatten(content));
      row[|row| - 1] == '\n' && '\n' !in row[..|row| - 1]
  {
    var p := RowParts(a, b, c, Flatten(content));
    var row := Row(a, b, c, Flatten(content));
    assert row[..|row| - 1] == Join(p, Quote);
    if '\n' in Join(p, Quote) {
      JoinChars(p, Quote, '\n');
    }
  }

  /** As written, app.py embeds the raw content: a newline in it splits the
      row across two lines of the file. */
  lemma RawContentCanSplitRow(a: string, b: string, c: string, content: string)
    requires '\n' in content
    ensures var row := Row(a, b, c, content);
      '\n' in row[..|row| - 1]
  {
    var p := RowParts(a, b, c, content);
    var row := Row(a, b, c, content);
    assert row[..|row| - 1] == Join(p, Quote);
    JoinKeepsPartChars(p, Quote, 7, '\n');
  }

  /** Flattening changes nothing on content without newlines, so the two
      variants write the same object for such content. */
  lemma FlattenKeepsOneLine(content: string)
    requires '\n' !in content
    ensures Flatten(content) == content
  {
  }

  lemma SaveVariantsAgreeOnOneLine(bucket: Bucket, videoId: string, title: string, datetime: string,
                                   content: string, faults: Faults)
    requires '\n' !in content
    ensures SaveToS3(bucket, videoId, title, datetime, content, faults) ==
      S3SaveTo(bucket, videoId, title, datetime, content, faults)
  {
    FlattenKeepsOneLine(content);
  }
}

=== FILE: caption_file.dfy ===
/** Finding the caption file the download tool wrote (`extract_subtitles`,
    app.py and src/youtube.py), after the tool has run.

    The tool is told to write `{num}.%(ext)s.vtt`; the expected name replaces
    the placeholder with the language code. If that name exists it is chosen,
    otherwise the first directory entry starting with the id and ending in
    `.vtt`. The tool run and the directory listing are inputs: names are
    relative to the caption directory, and the listing is in whatever order
    the operating system returns it. */
module CaptionFile {
  import opened Wrappers
  import opened Strings

  /** The output-template field the tool fills in with the file extension. */
  const Placeholder := "%(ext)s"

  /** The caption language requested from the tool. */
  const Lang := "en"

  const VttSuffix := ".vtt"

  /** The outcome of the subtitle download: exit status and captured stderr. */
  datatype ToolRun = ToolRun(exitCode: int, stderr: string)

  /** The output template `{num}.%(ext)s.vtt`. */
  function Template(num: string): string {
    num + "." + Placeholder + VttSuffix
  }

  /** `vtt_filename.replace("%(ext)s", "en")`. */
  function ExpectedName(num: string): string {
    ReplaceAll(Template(num), Placeholder, Lang)
  }

  /** For an id without `%` the expected name is `{num}.en.vtt`. */
  lemma ExpectedNameOfPlainId(num: string)
    requires '%' !in num
    ensures ExpectedName(num) == num + ".en.vtt"
  {
    var tail := Placeholder + VttSuffix;
    assert Template(num) == (num + ".") + tail;
    assert '%' !in num + ".";
    ReplaceAllPrefix(num + ".", tail, Placeholder, Lang);
    PlaceholderTail();
  }

  lemma PlaceholderTail()
    ensures ReplaceAll(Placeholder + VttSuffix, Placeholder, Lang) == Lang + VttSuffix
  {
    var t := Placeholder + VttSuffix;
    assert t[..|Placeholder|] == Placeholder;
    assert t[|Placeholder|..] == VttSuffix;
    assert '%' !in VttSuffix;
    ReplaceAllPrefix(VttSuffix, [], Placeholder, Lang);
    assert VttSuffix + [] == VttSuffix;
    assert ReplaceAll([], Placeholder, Lang) == [];
  }

  /** The fallback test: the name starts with the id and ends in `.vtt`. */
  predicate Qualifies(name: string, num: string) {
    StartsWith(name, num) && EndsWith(name, VttSuffix)
  }

  /** Index of the first qualifying entry of `listing`. */
  function FirstQualifying(listing: seq<string>, num: string): (r: Option<nat>)
    ensures r.Some? ==> r.value < |listing| && Qualifies(listing[r.value], num)
    ensures r.Some? ==> forall j | 0 <= j < r.value :: !Qualifies(listing[j], num)
    ensures r.None? <==> forall j | 0 <= j < |listing| :: !Qualifies(listing[j], num)
  {
    if listing == [] then None
    else if Qualifies(listing[0], num) then Some(0)
    else
      match FirstQualifying(listing[1..], num)
      case None => None
      case Some(k) => Some(k + 1)
  }

  datatype LocateError =
    | ToolFailed(stderr: string)  // non-zero exit
    | NotFound                    // nothing suitable in the directory

  /** src/youtube.py: a failing tool and a missing file both raise. */
  function Locate(run: ToolRun, listing: seq<string>, num: string): (r: Result<string, LocateError>)
    ensures r == Failure(ToolFailed(run.stderr)) <==> run.exitCode != 0
    ensures run.exitCode == 0 && ExpectedName(num) in listing ==> r == Success(ExpectedName(num))
    ensures r == Failure(NotFound) <==>
      run.exitCode == 0 && ExpectedName(num) !in listing &&
      forall j | 0 <= j < |listing| :: !Qualifies(listing[j], num)
    ensures run.exitCode == 0 && ExpectedName(num) !in listing && FirstQualifying(listing, num).Some? ==>
      r == Success(listing[FirstQualifying(listing, num).value])
    ensures r.Failure? ==> r == Failure(ToolFailed(run.stderr)) || r == Failure(NotFound)
    ensures r.Success? ==> r.value in listing
    ensures r.Success? && r.value != ExpectedName(num) ==>
      ExpectedName(num) !in listing &&
      exists i | 0 <= i < |listing| :: listing[i] == r.value && Qualifies(r.value, num) &&
        forall j | 0 <= j < i :: !Qualifies(listing[j], num)
  {
    if run.exitCode != 0 then Failure(ToolFailed(run.stderr))
    else if ExpectedName(num) in listing then Success(ExpectedName(num))
    else
      match FirstQualifying(listing, num)
      case Some(i) => Success(listing[i])
      case None => Failure(NotFound)
  }

  /** Any located file belongs to the video: for an id without `%`, its name
      starts with the id and ends in `.vtt`. */
  lemma LocatedNameQualifies(run: ToolRun, listing: seq<string>, num: string)
    requires '%' !in num && Locate(run, listing, num).Success?
    ensures Qualifies(Locate(run, listing, num).value, num)
  {
    ExpectedNameOfPlainId(num);
    var e := num + ".en.vtt";
    assert e[..|num|] == num;
    assert e[|e| - 4..] == VttSuffix;
  }

  /** A failed run is reported before the directory is consulted: the
      listing cannot change the outcome. */
  lemma ToolFailureIgnoresDirectory(run: ToolRun, a: seq<string>, b: seq<string>, num: string)
    requires run.exitCode != 0
    ensures Locate(run, a, num) == Locate(run, b, num) == Failure(ToolFailed(run.stderr))
  {
  }

  /** The listing order matters only when the expected name is absent. */
  lemma ExpectedNameBeatsOrder(run: ToolRun, a: seq<string>, b: seq<string>, num: string)
    requires run.exitCode == 0 && ExpectedName(num) in a && ExpectedName(num) in b
    ensures Locate(run, a, num) == Locate(run, b, num)
  {
  }

  /** app.py's shape: a `(path, error)` pair with exactly one side present. */
  datatype Located = Located(path: Option<string>, error: Option<string>)

  const NotFoundMessage := "Subtitle file not found after yt-dlp execution."

  /** app.py: errors are returned as text instead of raised. */
  function LocateApp(run: ToolRun, listing: seq<string>, num: string): (r: Located)
    ensures r.path.Some? != r.error.Some?
    ensures r.error == Some(run.stderr) <== run.exitCode != 0
  {
    if run.exitCode != 0 then Located(None, Some(run.stderr))
    else if ExpectedName(num) in listing then Located(Some(ExpectedName(num)), None)
    else
      match FirstQualifying(listing, num)
      case Some(i) => Located(Some(listing[i]), None)
      case None => Located(None, Some(NotFoundMessage))
  }

  /** Both variants choose the same file and fail in the same cases. */
  lemma LocateVariantsAgree(run: ToolRun, listing: seq<string>, num: string)
    ensures LocateApp(run, listing, num) ==
      match Locate(run, listing, num)
      case Success(name) => Located(Some(name), None)
      case Failure(ToolFailed(e)) => Located(None, Some(e))
      case Failure(NotFound) => Located(None, Some(NotFoundMessage))
  {
  }

  /** A failed run with nothing on stderr reports an error that is present but
      empty, and no path. */
  lemma SilentFailureHasEmptyError(run: ToolRun, listing: seq<string>, num: string)
    requires run.exitCode != 0 && run.stderr == []
    ensures LocateApp(run, listing, num) == Located(None, Some([]))
  {
  }
}

=== FILE: captions.dfy ===
/** Caption normalisation (`process_vtt_content`, app.py and src/youtube.py).

    The caption file is read line by line. A line holding `-->`, the WebVTT
    cue-timings separator (section 4 of the W3C WebVTT specification), is
    dropped; this is a line filter, not a WebVTT parser. Every other line has
    each `<[^>]+>` markup tag removed, is stripped of surrounding whitespace,
    and becomes one piece; the pieces are joined with single spaces. Blank
    lines are kept as empty pieces. */
module Captions {
  import opened Wrappers
  import opened Strings

  // ---------------------------------------------------------------------------
  // Lines

  /** A line as Python's text-mode file iteration yields it: non-empty, with a
      newline at most as its last character. */
  predicate IsLine(l: string) {
    l != [] && forall i | 0 <= i < |l| - 1 :: l[i] != '\n'
  }

  function Concat(lines: seq<string>): string {
    if lines == [] then [] else lines[0] + Concat(lines[1..])
  }

  /** The lines `for line in file` yields for the (newline-translated) text. */
  function SplitLines(text: string): seq<string>
    decreases |text|
  {
    if text == [] then []
    else
      match IndexOf(text, '\n')
      case None => [text]
      case Some(k) => [text[..k + 1]] + SplitLines(text[k + 1..])
  }

  /** The lines cover the text in order; each keeps its terminating newline
      and holds no other, and only the last may lack one. */
  lemma {:induction false} SplitLinesSpec(text: string)
    ensures var lines := SplitLines(text);
      && Concat(lines) == text
      && (forall k | 0 <= k < |lines| :: IsLine(lines[k]))
      && (forall k | 0 <= k < |lines| - 1 :: lines[k] != [] && lines[k][|lines[k]| - 1] == '\n')
    decreases |text|
  {
    if text != [] {
      match IndexOf(text, '\n')
      case None =>
      case Some(k) =>
        assert text == text[..k + 1] + text[k + 1..];
        SplitLinesSpec(text[k + 1..]);
    }
  }

  /** A newline-terminated line splits off the front of the text. */
  lemma SplitLinesFirst(line: string, rest: string)
    requires IsLine(line) && line[|line| - 1] == '\n'
    ensures SplitLines(line + rest) == [line] + SplitLines(rest)
  {
    var body := line[..|line| - 1];
    assert line == body + ['\n'] + [];
    assert line + rest == body + ['\n'] + rest;
    IndexOfAfter(body, '\n', rest);
    assert (line + rest)[..|line|] == line;
    assert (line + rest)[|line|..] == rest;
  }

  // ---------------------------------------------------------------------------
  // Markup tags

  /** A match of `<[^>]+>` spans indices `i` to `j` of `s` inclusive. */
  ghost predicate TagSpans(s: string, i: int, j: int) {
    0 <= i && i + 1 < j < |s| && s[i] == '<' && s[j] == '>' && '>' !in s[i + 1..j]
  }

  /** No match of `<[^>]+>` anywhere in `s`. */
  ghost predicate TagFree(s: string) {
    forall i, j | 0 <= i < j < |s| :: !TagSpans(s, i, j)
  }

  /** Length of the tag `<[^>]+>` at the head of `s`, or 0 when none starts
      there: a `<`, at least one other character, then the first `>`. */
  function TagLength(s: string): (n: nat)
    ensures n > 0 ==> n <= |s| && TagSpans(s, 0, n - 1)
    ensures n == 0 && s != [] && s[0] == '<' ==> '>' !in s[1..] || (|s| >= 2 && s[1] == '>')
  {
    if |s| >= 2 && s[0] == '<' then
      match IndexOf(s[1..], '>')
      case Some(k) =>
        if k >= 1 then
          assert s[1..k + 1] == s[1..][..k];
          k + 2
        else 0
      case None => 0
    else 0
  }

  /** `re.sub(r'<[^>]+>', '', s)`: scanning left to right, each tag that
      starts at the scan position is removed; any other character is kept. */
  function StripTags(s: string): (r: string)
    ensures |r| <= |s|
    ensures forall c | c in r :: c in s
    decreases |s|
  {
    if s == [] then []
    else
      var n := TagLength(s);
      if n > 0 then StripTags(s[n..])
      else [s[0]] + StripTags(s[1..])
  }

  /** Prepending a character keeps a string tag-free, unless it is a `<` that
      a later `>` would close. */
  lemma TagFreeCons(c: char, t: string)
    requires TagFree(t)
    requires c == '<' ==> '>' !in t || (t != [] && t[0] == '>')
    ensures TagFree([c] + t)
  {
    var u := [c] + t;
    forall i, j | 0 <= i < j < |u|
      ensures !TagSpans(u, i, j)
    {
      if i > 0 {
        assert u[i + 1..j] == t[i..j - 1];
        assert !TagSpans(t, i - 1, j - 1);
      } else if j >= 2 {
        assert u[1..j] == t[..j - 1];
        assert u[j] == t[j - 1];
        if t != [] && t[0] == '>' {
          assert t[..j - 1][0] == '>';
        }
      }
    }
  }

  /** Tag removal leaves no tag behind, so a second pass changes nothing. */
  lemma {:induction false} StripTagsLeavesNoTag(s: string)
    ensures TagFree(StripTags(s))
    decreases |s|
  {
    if s != [] {
      var n := TagLength(s);
      if n > 0 {
        StripTagsLeavesNoTag(s[n..]);
      } else {
        StripTagsLeavesNoTag(s[1..]);
        var t := StripTags(s[1..]);
        if |s| >= 2 && s[1] == '>' {
          assert TagLength(s[1..]) == 0;
          assert t[0] == '>';
        }
        TagFreeCons(s[0], t);
      }
    }
  }

  /** Every `<` in a tag-free string is followed directly by `>` or by no `>`. */
  lemma TagFreeHead(s: string)
    requires TagFree(s) && s != []
    ensures TagLength(s) == 0
    ensures TagFree(s[1..])
  {
    if |s| >= 2 && s[0] == '<' && s[1] != '>' && '>' in s[1..] {
      var k :| 1 <= k < |s| && s[k] == '>';
      var first := IndexOf(s[1..], '>').value + 1;
      assert TagSpans(s, 0, first);
    }
    forall i, j | 0 <= i < j < |s[1..]|
      ensures !TagSpans(s[1..], i, j)
    {
      assert s[1..][i + 1..j] == s[i + 2..j + 1];
      assert !TagSpans(s, i + 1, j + 1);
    }
  }

  /** Tag removal is the identity on tag-free text. */
  lemma {:induction false} StripTagsKeepsTagFree(s: string)
    requires TagFree(s)
    ensures StripTags(s) == s
    decreases |s|
  {
    if s != [] {
      TagFreeHead(s);
      StripTagsKeepsTagFree(s[1..]);
      assert s == [s[0]] + s[1..];
    }
  }

  /** Tag removal is idempotent. */
  lemma StripTagsIdempotent(s: string)
    ensures StripTags(StripTags(s)) == StripTags(s)
  {
    StripTagsLeavesNoTag(s);
    StripTagsKeepsTagFree(StripTags(s));
  }

  lemma {:induction false} IndexOfAppend(s: string, c: char, d: char)
    requires d != c
    ensures IndexOf(s + [d], c) == IndexOf(s, c)
  {
    if s != [] {
      assert (s + [d])[1..] == s[1..] + [d];
      IndexOfAppend(s[1..], c, d);
    }
  }

  lemma TagLengthAppend(s: string, d: char)
    requires s != [] && d != '>'
    ensures TagLength(s + [d]) == TagLength(s)
  {
    if |s| >= 2 {
      assert (s + [d])[1..] == s[1..] + [d];
      IndexOfAppend(s[1..], '>', d);
    } else {
      assert (s + [d])[1..] == [d];
    }
  }

  /** A final character other than `>` cannot close a tag, so it passes
      through tag removal. */
  lemma {:induction false} StripTagsAppend(s: string, d: char)
    requires d != '>'
    ensures StripTags(s + [d]) == StripTags(s) + [d]
    decreases |s|
  {
    if s == [] {
      assert StripTags([d]) == [d] + StripTags([]);
    } else {
      TagLengthAppend(s, d);
      var n := TagLength(s);
      if n > 0 {
        assert (s + [d])[n..] == s[n..] + [d];
        StripTagsAppend(s[n..], d);
      } else {
        assert (s + [d])[1..] == s[1..] + [d];
        StripTagsAppend(s[1..], d);
      }
    }
  }

  /** Text without `<` passes through tag removal untouched. */
  lemma {:induction false} StripTagsPlainPrefix(a: string, b: string)
    requires '<' !in a
    ensures StripTags(a + b) == a + StripTags(b)
    decreases |a|
  {
    if a != [] {
      assert (a + b)[0] == a[0];
      assert (a + b)[1..] == a[1..] + b;
      StripTagsPlainPrefix(a[1..], b);
      assert a == [a[0]] + a[1..];
    } else {
      assert a + b == b;
    }
  }

  /** A tag at the head is removed whole. */
  lemma StripTagsTagPrefix(tag: string, b: string)
    requires |tag| >= 3 && tag[0] == '<' && tag[|tag| - 1] == '>' && '>' !in tag[1..|tag| - 1]
    ensures StripTags(tag + b) == StripTags(b)
  {
    var s := tag + b;
    var inner := tag[1..|tag| - 1];
    assert s[1..] == inner + ['>'] + b;
    IndexOfAfter(inner, '>', b);
    assert TagLength(s) == |tag|;
    assert s[|tag|..] == b;
  }

  // ---------------------------------------------------------------------------
  // Lines to pieces

  /** The WebVTT cue-timings separator. */
  const CueArrow := "-->"

  /** One kept line's piece: tags removed, then stripped. */
  function Clean(line: string): string {
    Strip(StripTags(line))
  }

  /** The trailing newline of a line makes no difference to its piece. */
  lemma CleanIgnoresTerminator(body: string)
    ensures Clean(body + "\n") == Clean(body)
  {
    StripTagsAppend(body, '\n');
    StripIgnoresTrailingSpace(StripTags(body), '\n');
  }

  /** A piece carries no newline, provided its line has none before its end. */
  lemma CleanHasNoNewline(line: string)
    requires IsLine(line)
    ensures '\n' !in Clean(line)
  {
    var body := if line[|line| - 1] == '\n' then line[..|line| - 1] else line;
    assert '\n' !in body;
    if line[|line| - 1] == '\n' {
      assert line == body + "\n";
      CleanIgnoresTerminator(body);
    }
    if '\n' in Clean(body) {
      StripChars(StripTags(body), '\n');
    }
  }

  lemma SliceSpans(t: string, lo: int, hi: int, i: int, j: int)
    requires 0 <= lo <= hi <= |t| && 0 <= i < j < hi - lo
    ensures TagSpans(t[lo..hi], i, j) ==> TagSpans(t, lo + i, lo + j)
  {
    var r := t[lo..hi];
    assert forall k | i + 1 <= k < j :: r[k] == t[lo + k];
    assert r[i + 1..j] == t[lo + i + 1..lo + j];
  }

  /** Any slice of a tag-free string is tag-free. */
  lemma TagFreeSlice(t: string, lo: int, hi: int)
    requires TagFree(t) && 0 <= lo <= hi <= |t|
    ensures TagFree(t[lo..hi])
  {
    var r := t[lo..hi];
    forall i, j | 0 <= i < j < |r|
      ensures !TagSpans(r, i, j)
    {
      SliceSpans(t, lo, hi, i, j);
    }
  }

  /** A piece holds no tag of its own. */
  lemma CleanIsTagFree(line: string)
    ensures TagFree(Clean(line))
  {
    var t := StripTags(line);
    StripTagsLeavesNoTag(line);
    StripRemovesOuterSpace(t);
    var lo := |t| - |TrimStart(t)|;
    TagFreeSlice(t, lo, lo + |Clean(line)|);
  }

  /** The lines that survive the `-->` filter, in their original order. */
  function Kept(lines: seq<string>): (kept: seq<string>)
    ensures |kept| <= |lines|
  {
    if lines == [] then []
    else if Contains(lines[0], CueArrow) then Kept(lines[1..])
    else [lines[0]] + Kept(lines[1..])
  }

  /** A line is kept exactly when it is one of the input lines without `-->`. */
  lemma {:induction false} KeptMembers(lines: seq<string>, l: string)
    ensures l in Kept(lines) <==> l in lines && !Contains(l, CueArrow)
  {
    if lines != [] {
      KeptMembers(lines[1..], l);
      assert lines == [lines[0]] + lines[1..];
    }
  }

  /** The filter commutes with concatenation: the lines of `a` keep their
      order and all come before those of `b`. */
  lemma {:induction false} KeptAppend(a: seq<string>, b: seq<string>)
    ensures Kept(a + b) == Kept(a) + Kept(b)
  {
    if a == [] {
      assert a + b == b;
    } else {
      assert (a + b)[0] == a[0];
      assert (a + b)[1..] == a[1..] + b;
      KeptAppend(a[1..], b);
    }
  }

  /** The pieces the loop appends: the cleaned form of each kept line, in order. */
  function Pieces(lines: seq<string>): (pieces: seq<string>)
    ensures |pieces| == |Kept(lines)|
  {
    var kept := Kept(lines);
    seq(|kept|, k requires 0 <= k < |kept| => Clean(kept[k]))
  }

  /** `' '.join(content)` over the pieces of the given lines. */
  function Normalise(lines: seq<string>): (text: string)
    ensures |Pieces(lines)| > 0 ==>
      |text| == TotalLength(Pieces(lines)) + |Pieces(lines)| - 1
    ensures text == [] <==>
      |Kept(lines)| == 0 || (|Kept(lines)| == 1 && Clean(Kept(lines)[0]) == [])
  {
    JoinEmptyIff(Pieces(lines), ' ');
    Join(Pieces(lines), ' ')
  }

  /** The normalised text of a caption file's contents. */
  function NormaliseText(text: string): string {
    Normalise(SplitLines(text))
  }

  /** Normalised text is a single line: no newline survives. */
  lemma NormalisedIsOneLine(text: string)
    ensures '\n' !in NormaliseText(text)
  {
    var lines := SplitLines(text);
    SplitLinesSpec(text);
    var pieces := Pieces(lines);
    forall k | 0 <= k < |pieces|
      ensures '\n' !in pieces[k]
    {
      var l := Kept(lines)[k];
      KeptMembers(lines, l);
      CleanHasNoNewline(l);
    }
    if '\n' in NormaliseText(text) {
      JoinChars(pieces, ' ', '\n');
    }
  }

  /** Each piece is tag-free; the joined text need not be (see below). */
  lemma PiecesAreTagFree(lines: seq<string>)
    ensures forall k | 0 <= k < |Pieces(lines)| :: TagFree(Pieces(lines)[k])
  {
    forall k | 0 <= k < |Pieces(lines)|
      ensures TagFree(Pieces(lines)[k])
    {
      CleanIsTagFree(Kept(lines)[k]);
    }
  }

  /** Two kept lines are joined by one space. */
  lemma NormaliseTwoKept(a: string, b: string)
    requires !Contains(a, CueArrow) && !Contains(b, CueArrow)
    ensures Normalise([a, b]) == Clean(a) + " " + Clean(b)
  {
    assert [a, b][1..] == [b];
    assert Kept([a, b]) == [a, b];
    assert Pieces([a, b]) == [Clean(a), Clean(b)];
    JoinTwo(Clean(a), Clean(b), ' ');
  }

  /** A cue-timing line contributes nothing. */
  lemma NormaliseSkipsCue(cue: string, rest: seq<string>)
    requires Contains(cue, CueArrow)
    ensures Normalise([cue] + rest) == Normalise(rest)
  {
    assert ([cue] + rest)[1..] == rest;
  }

  /** Three newline-terminated lines split back into themselves. */
  lemma SplitThreeLines(l1: string, l2: string, l3: string)
    requires IsLine(l1) && l1[|l1| - 1] == '\n'
    requires IsLine(l2) && l2[|l2| - 1] == '\n'
    requires IsLine(l3) && l3[|l3| - 1] == '\n'
    ensures SplitLines(l1 + l2 + l3) == [l1, l2, l3]
  {
    var tail := l2 + l3;
    assert l1 + l2 + l3 == l1 + tail;
    calc {
      SplitLines(l1 + tail);
      { SplitLinesFirst(l1, tail); }
      [l1] + SplitLines(tail);
      { SplitTwoLines(l2, l3); }
      [l1] + [l2, l3];
    }
  }

  /** A newline-terminated line and a last line split back into themselves. */
  lemma SplitTwoLines(l1: string, l2: string)
    requires IsLine(l1) && l1[|l1| - 1] == '\n' && IsLine(l2)
    ensures SplitLines(l1 + l2) == [l1, l2]
  {
    SplitOneLine(l2);
    SplitLinesFirst(l1, l2);
  }

  /** A `<[^>]+>` match on its own. */
  predicate IsTag(t: string) {
    |t| >= 3 && t[0] == '<' && t[|t| - 1] == '>' && '>' !in t[1..|t| - 1]
  }

  /** A line of two runs of plain text, each opened by a tag, loses the tags,
      its newline and its outer whitespace. */
  lemma CleanTaggedRuns(open: string, a: string, close: string, b: string)
    requires IsTag(open) && IsTag(close) && '<' !in a && '<' !in b
    ensures Clean(open + a + close + b + "\n") == Strip(a + b)
  {
    var body := open + a + close + b;
    assert body == open + (a + (close + (b + [])));
    StripTagsPlainPrefix(b, []);
    StripTagsTagPrefix(close, b + []);
    StripTagsPlainPrefix(a, close + (b + []));
    StripTagsTagPrefix(open, a + (close + (b + [])));
    assert b + [] == b;
    CleanIgnoresTerminator(body);
  }

  /** The caption line of the worked example, `<b>Hello</b> world`, in its
      runs of markup and text. The lemmas below take the runs as parameters
      fixed by this predicate, so that their proofs reason about four short
      strings rather than one long literal; `WorkedExampleText` states the
      result with the literals written out. */
  predicate ExampleRuns(open: string, hello: string, close: string, world: string) {
    open == "<b>" && hello == "Hello" && close == "</b>" && world == " world"
  }

  /** Markup inside a caption line disappears; the newline goes with `strip`. */
  lemma CaptionLineExample(open: string, hello: string, close: string, world: string)
    requires ExampleRuns(open, hello, close, world)
    ensures Clean(open + hello + close + world + "\n") == hello + world
  {
    CleanTaggedRuns(open, hello, close, world);
    ExampleWords(hello, world);
  }

  lemma ExampleWords(hello: string, world: string)
    requires hello == "Hello" && world == " world"
    ensures Strip(hello + world) == hello + world
  {
    var words := hello + world;
    assert words[0] == 'H' && words[|words| - 1] == 'd';
    StripKeepsTrimmed(words);
  }

  /** A blank line's piece is empty. */
  lemma BlankLineIsEmptyPiece(line: string)
    requires line == "\n"
    ensures IsLine(line) && line[|line| - 1] == '\n'
    ensures !Contains(line, CueArrow) && Clean(line) == []
  {
    NotContainedWithoutHead(line, CueArrow);
    CleanIgnoresTerminator([]);
    assert line == [] + "\n";
  }

  lemma CueLineShape(cue: string)
    requires cue == "00:00:01.000 --> 00:00:02.000\n"
    ensures IsLine(cue) && cue[|cue| - 1] == '\n' && Contains(cue, CueArrow)
  {
    assert OccursAt(cue, CueArrow, 13);
  }

  lemma CaptionLineShape(open: string, hello: string, close: string, world: string)
    requires ExampleRuns(open, hello, close, world)
    ensures var line := open + hello + close + world + "\n";
      IsLine(line) && line[|line| - 1] == '\n' && !Contains(line, CueArrow)
  {
    var body := open + hello + close + world;
    var line := body + "\n";
    assert '\n' !in body && '-' !in body;
    assert forall i | 0 <= i < |body| :: line[i] == body[i];
    NotContainedWithoutHead(line, CueArrow);
  }

  /** A cue line, then a caption line, then a blank line: the caption's
      piece followed by the blank line's empty piece. */
  lemma CueCaptionBlank(cue: string, caption: string, blank: string)
    requires IsLine(cue) && cue[|cue| - 1] == '\n' && Contains(cue, CueArrow)
    requires IsLine(caption) && caption[|caption| - 1] == '\n' && !Contains(caption, CueArrow)
    requires IsLine(blank) && blank[|blank| - 1] == '\n' && !Contains(blank, CueArrow)
    ensures NormaliseText(cue + caption + blank) == Clean(caption) + " " + Clean(blank)
  {
    SplitThreeLines(cue, caption, blank);
    assert [cue, caption, blank] == [cue] + [caption, blank];
    NormaliseSkipsCue(cue, [caption, blank]);
    NormaliseTwoKept(caption, blank);
  }

  /** The worked example: a cue line, a marked-up caption line and a blank
      line give the caption words followed by one space for the blank line. */
  lemma WorkedExample(cue: string, open: string, hello: string, close: string, world: string, blank: string)
    requires cue == "00:00:01.000 --> 00:00:02.000\n"
    requires ExampleRuns(open, hello, close, world)
    requires blank == "\n"
    ensures NormaliseText(cue + (open + hello + close + world + "\n") + blank) == hello + world + " "
  {
    var caption := open + hello + close + world + "\n";
    CueLineShape(cue);
    CaptionLineShape(open, hello, close, world);
    BlankLineIsEmptyPiece(blank);
    CueCaptionBlank(cue, caption, blank);
    CaptionLineExample(open, hello, close, world);
  }

  /** The worked example with its runs written out in place. */
  lemma WorkedExampleText()
    ensures NormaliseText("00:00:01.000 --> 00:00:02.000\n" + ("<b>" + "Hello" + "</b>" + " world" + "\n") + "\n")
      == "Hello" + " world" + " "
  {
    WorkedExample("00:00:01.000 --> 00:00:02.000\n", "<b>", "Hello", "</b>", " world", "\n");
  }

  /** A last line, with or without its newline, splits into itself. */
  lemma SplitOneLine(l: string)
    requires IsLine(l)
    ensures SplitLines(l) == [l]
  {
    if l[|l| - 1] == '\n' {
      SplitLinesFirst(l, []);
      assert l + [] == l;
    } else {
      assert '\n' !in l;
    }
  }

  /** Two lines, neither a cue line, give their pieces joined by a space. */
  lemma TwoCaptionLines(l1: string, l2: string)
    requires IsLine(l1) && l1[|l1| - 1] == '\n' && !Contains(l1, CueArrow)
    requires IsLine(l2) && !Contains(l2, CueArrow)
    ensures NormaliseText(l1 + l2) == Clean(l1) + " " + Clean(l2)
  {
    SplitTwoLines(l1, l2);
    NormaliseTwoKept(l1, l2);
  }

  /** A single line without `-->` normalises to its own piece. */
  lemma OneCaptionLine(l: string)
    requires IsLine(l) && !Contains(l, CueArrow)
    ensures NormaliseText(l) == Clean(l)
  {
    SplitOneLine(l);
    assert Kept([l]) == [l];
    assert Pieces([l]) == [Clean(l)];
  }

  /** Plain text around one tag keeps only the plain text. */
  lemma StripTagsAroundTag(a: string, tag: string, b: string)
    requires '<' !in a && IsTag(tag)
    ensures StripTags(a + tag + b) == a + StripTags(b)
  {
    StripTagsPlainPrefix(a, tag + b);
    StripTagsTagPrefix(tag, b);
    assert a + tag + b == a + (tag + b);
  }

  /** A dash, a tag without dashes or newlines, then `->`: a single line
      with no `-->` in it. */
  lemma ArrowLineFacts(tag: string)
    requires IsTag(tag) && '-' !in tag && '\n' !in tag
    ensures IsLine("-" + tag + "->") && !Contains("-" + tag + "->", CueArrow)
  {
    var line, n := "-" + tag + "->", |tag|;
    assert line[0] == '-' && line[n + 1] == '-' && line[n + 2] == '>';
    assert forall i | 1 <= i <= n :: line[i] == tag[i - 1];
    assert line[1] == '<';
    forall i | 0 <= i < |line| - 1
      ensures line[i] != '\n'
    {
      if 1 <= i <= n {
        assert tag[i - 1] in tag;
      }
    }
    forall i | 0 <= i <= |line|
      ensures !OccursAt(line, CueArrow, i)
    {
      if i + 3 <= |line| {
        assert line[i..i + 3][0] == line[i];
        assert line[i..i + 3][1] == line[i + 1];
        assert line[i..i + 3][2] == line[i + 2];
        if 1 <= i <= n {
          assert tag[i - 1] in tag;
        }
      }
    }
  }

  /** A kept line of plain text around one tag normalises to its plain text,
      stripped. */
  lemma PlainAroundTag(dash: string, tag: string, rest: string)
    requires '<' !in dash && IsTag(tag) && '<' !in rest
    requires IsLine(dash + tag + rest) && !Contains(dash + tag + rest, CueArrow)
    ensures NormaliseText(dash + tag + rest) == Strip(dash + rest)
  {
    StripTagsAroundTag(dash, tag, rest);
    StripTagsPlainPrefix(rest, []);
    assert rest + [] == rest;
    OneCaptionLine(dash + tag + rest);
  }

  /** The `-->` filter looks at the line before its tags are removed, so an
      arrow split by markup (`-<b>->`, say) survives into the output. */
  lemma ArrowSplitByMarkupSurvives(tag: string)
    requires IsTag(tag) && '-' !in tag && '\n' !in tag
    ensures !Contains("-" + tag + "->", CueArrow)
    ensures NormaliseText("-" + tag + "->") == CueArrow
  {
    var dash, rest := "-", "->";
    ArrowLineFacts(tag);
    PlainAroundTag(dash, tag, rest);
    ArrowHalves(dash, rest);
  }

  lemma ArrowHalves(dash: string, rest: string)
    requires dash == "-" && rest == "->"
    ensures '<' !in dash && '<' !in rest && Strip(dash + rest) == CueArrow
  {
    assert dash + rest == CueArrow;
    StripKeepsTrimmed(CueArrow);
  }

  /** Text with no complete tag and no outer whitespace is its own piece. */
  lemma CleanUntagged(s: string)
    requires TagFree(s) && (s != [] ==> !IsSpace(s[0]) && !IsSpace(s[|s| - 1]))
    ensures Clean(s) == s
  {
    StripTagsKeepsTagFree(s);
    StripKeepsTrimmed(s);
  }

  /** Two two-character lines without whitespace are kept as they are. */
  lemma ShortLinesJoin(a: string, b: string)
    requires |a| == 2 && |b| == 2 && '-' !in a && '-' !in b && '\n' !in b
    requires !IsSpace(a[0]) && !IsSpace(a[1]) && !IsSpace(b[0]) && !IsSpace(b[1])
    ensures NormaliseText(a + "\n" + b) == a + " " + b
  {
    var l1 := a + "\n";
    assert '-' !in l1 && IsLine(l1);
    NotContainedWithoutHead(l1, CueArrow);
    NotContainedWithoutHead(b, CueArrow);
    TwoCaptionLines(l1, b);
    CleanIgnoresTerminator(a);
    CleanUntagged(a);
    CleanUntagged(b);
  }

  /** The pieces are tag-free but their join need not be: a piece ending in
      `<` and the next starting with `>` (lines `a<` and `>b`, say) form a
      tag around the joining space. */
  lemma JoinedPiecesCanHoldTag(a: string, b: string)
    requires |a| == 2 && |b| == 2 && '-' !in a && '-' !in b && '\n' !in b
    requires !IsSpace(a[0]) && !IsSpace(a[1]) && !IsSpace(b[0]) && !IsSpace(b[1])
    requires a[1] == '<' && b[0] == '>'
    ensures NormaliseText(a + "\n" + b) == a + " " + b
    ensures !TagFree(a + " " + b)
    ensures StripTags(a + " " + b) != a + " " + b
  {
    ShortLinesJoin(a, b);
    TagAcrossSpace(a, b);
    StripTagsLeavesNoTag(a + " " + b);
  }

  /** A piece ending in `<` followed by one starting with `>` makes a tag. */
  lemma TagAcrossSpace(x: string, y: string)
    requires x != [] && x[|x| - 1] == '<' && y != [] && y[0] == '>'
    ensures !TagFree(x + " " + y)
  {
    var j := x + " " + y;
    assert j[|x| - 1] == '<' && j[|x|] == ' ' && j[|x| + 1] == '>';
    assert j[|x|..|x| + 1] == " ";
    assert TagSpans(j, |x| - 1, |x| + 1);
  }

  /** Two blank lines give two empty pieces and so a single space. */
  lemma BlankLinesGiveSpace(text: string)
    requires text == "\n\n"
    ensures NormaliseText(text) == " "
  {
    var l := text[..1];
    assert l == "\n" && text == l + l;
    BlankLineIsEmptyPiece(l);
    TwoCaptionLines(l, l);
  }

  // ---------------------------------------------------------------------------
  // The two variants of process_vtt_content

  datatype CaptionError =
    | CaptionFileMissing  // the file could not be opened
    | NoCaptionText       // the joined text is empty

  /** src/youtube.py: a missing file and an empty result both raise. `file` is
      the file's text, or `None` when opening it fails. */
  function ProcessVtt(file: Option<string>): (r: Result<string, CaptionError>)
    ensures r == Failure(CaptionFileMissing) <==> file.None?
    ensures r == Failure(NoCaptionText) <==>
      file.Some? &&
      var kept := Kept(SplitLines(file.value));
      |kept| == 0 || (|kept| == 1 && Clean(kept[0]) == [])
    ensures r.Success? ==> r.value != [] && file.Some? && r.value == NormaliseText(file.value)
  {
    match file
    case None => Failure(CaptionFileMissing)
    case Some(text) =>
      var result := NormaliseText(text);
      if result == [] then Failure(NoCaptionText) else Success(result)
  }

  /** app.py: a missing file yields the empty string instead of an error. */
  function ProcessVttApp(file: Option<string>): string {
    match file
    case None => []
    case Some(text) => NormaliseText(text)
  }

  /** The two variants agree: app.py's result is non-empty exactly when
      src/youtube.py's succeeds, and then they are the same text. */
  lemma VariantsAgree(file: Option<string>)
    ensures ProcessVtt(file).Success? <==> ProcessVttApp(file) != []
    ensures ProcessVtt(file).Success? ==> ProcessVtt(file).value == ProcessVttApp(file)
  {
  }
}

=== FILE: flow.dfy ===
/** What the two submission pipelines (`index` in app.py and
    `ProcessYoutube.__init__` in src/youtube.py) take from outside and the
    steps they take, so that their behaviour can be stated as a function of
    these inputs. */
module Flow {
  import opened Wrappers
  import opened CaptionFile
  import opened Archive

  /** The title used when the metadata has none. */
  const DefaultTitle := "제목 없음"

  /** A metadata field's value: a string, or any other JSON value (null, a
      number, a list, an object). */
  datatype Field = Text(text: string) | NonText

  type Metadata = map<string, Field>

  /** Everything a submission learns from the world: the request, the results
      of the external tools, the clock, the caption directory and whether each
      store call fails. Metadata is the JSON object the tool prints, every
      field kept (so its truthiness is its non-emptiness) with non-string
      values left opaque; `None` when the tool exits non-zero. */
  datatype World = World(
    url: Option<string>,
    info: Option<Metadata>,
    now: string,
    lookupFails: bool,
    tool: ToolRun,
    listing: seq<string>,
    files: map<string, string>,
    putFails: bool,
    archiveFaults: Faults)

  /** The external steps, in the order both pipelines take them. */
  datatype Call = FetchInfo | LookUp | FetchSubtitles | ReadCaptions | SaveRecord | AppendArchive

  const Steps := [FetchInfo, LookUp, FetchSubtitles, ReadCaptions, SaveRecord, AppendArchive]

  /** `video_info.get('title', '제목 없음')` for a string title; a title of
      another JSON type also falls back to the default here. */
  function Title(info: Metadata): string {
    if "title" in info && info["title"].Text? then info["title"].text else DefaultTitle
  }

  /** `video_info.get('thumbnail')` for a string thumbnail. */
  function Thumbnail(info: Metadata): Option<string> {
    if "thumbnail" in info && info["thumbnail"].Text? then Some(info["thumbnail"].text) else None
  }

  /** Opening a caption file: its text, or `None` when it does not exist. */
  function ReadFile(files: map<string, string>, name: string): Option<string> {
    if name in files then Some(files[name]) else None
  }
}

=== FILE: process_youtube.dfy ===
/** The src/ pipeline (`ProcessYoutube.__init__` in src/youtube.py): the same
    steps as the app.py handler, but every failure raises, nothing is
    reported as a message, and only the record store is written.

    The source's wiring is inconsistent in ways this model resolves: the id
    extraction it imports is the app.py function (`VideoId`), the duplicate
    check is the record store's (id, title) lookup, and the saved record
    carries the thumbnail and problem number the caller passes. */
module ProcessYoutube {
  import opened Wrappers
  import opened VideoId
  import opened Captions
  import opened CaptionFile
  import opened Records
  import opened Flow
  import Submit

  /** Why the pipeline stopped; each is an exception in the source. */
  datatype PipelineError =
    | NoVideoId                        // extraction gave `None`; the metadata call rejects it
    | MetadataFailed                   // the metadata tool exited non-zero
    | Duplicated                       // `DynamoDuplicatedError`
    | SubtitlesFailed(locate: LocateError)
    | CaptionsFailed(captions: CaptionError)

  datatype Outcome = Outcome(result: Result<Item, PipelineError>, table: Table, calls: seq<Call>)

  /** The steps the src/ pipeline takes; it does not write the archive. */
  const SrcSteps := Steps[..5]

  function Run(url: string, w: World, table: Table, problem: int): (r: Outcome)
    ensures r.calls <= SrcSteps
    ensures r.result.Failure? ==> r.table == table
    ensures r.result == Failure(NoVideoId) <==> ExtractVideoId(url).None?
    ensures r.result == Failure(NoVideoId) ==> r.calls == []
    ensures r.result == Failure(MetadataFailed) ==> r.calls == SrcSteps[..1]
    ensures r.result == Failure(Duplicated) ==> r.calls == SrcSteps[..2] && !w.lookupFails
    ensures r.result.Failure? && r.result.error.SubtitlesFailed? ==> r.calls == SrcSteps[..3]
    ensures r.result.Failure? && r.result.error.CaptionsFailed? ==> r.calls == SrcSteps[..4]
    ensures r.result == Failure(MetadataFailed) <==> ExtractVideoId(url).Some? && w.info.None?
    ensures r.result == Failure(Duplicated) <==>
      ExtractVideoId(url).Some? && w.info.Some? &&
      Exists(table, ExtractVideoId(url).value, Title(w.info.value), w.lookupFails)
    ensures r.result.Failure? && r.result.error.SubtitlesFailed? ==>
      ExtractVideoId(url).Some? &&
      Locate(w.tool, w.listing, ExtractVideoId(url).value) == Failure(r.result.error.locate)
    ensures r.result.Failure? && r.result.error.CaptionsFailed? ==>
      && ExtractVideoId(url).Some?
      && var located := Locate(w.tool, w.listing, ExtractVideoId(url).value);
      && located.Success?
      && ProcessVtt(ReadFile(w.files, located.value)) == Failure(r.result.error.captions)
    ensures r.result.Success? ==>
      var item := r.result.value;
      && r.calls == SrcSteps
      && ExtractVideoId(url) == Some(item.videoId)
      && w.info.Some?
      && !Exists(table, item.videoId, Title(w.info.value), w.lookupFails)
      && Locate(w.tool, w.listing, item.videoId).Success?
      && var captions := ProcessVtt(ReadFile(w.files, Locate(w.tool, w.listing, item.videoId).value));
      && captions.Success? && item.content == captions.value
      && item.title == Title(w.info.value)
      && item.thumbnail == Thumbnail(w.info.value)
      && item.problem == Some(problem)
      && item.datetime == w.now
      && item.content != []
      && '\n' !in item.content
      && r.table == Save(table, item, w.putFails)
  {
    match ExtractVideoId(url)
    case None => Outcome(Failure(NoVideoId), table, [])
    case Some(id) =>
      match w.info
      case None => Outcome(Failure(MetadataFailed), table, SrcSteps[..1])
      case Some(info) =>
        var title := Title(info);
        if Exists(table, id, title, w.lookupFails) then Outcome(Failure(Duplicated), table, SrcSteps[..2])
        else
          match Locate(w.tool, w.listing, id)
          case Failure(e) => Outcome(Failure(SubtitlesFailed(e)), table, SrcSteps[..3])
          case Success(name) =>
            var file := ReadFile(w.files, name);
            match ProcessVtt(file)
            case Failure(e) => Outcome(Failure(CaptionsFailed(e)), table, SrcSteps[..4])
            case Success(content) =>
              NormalisedIsOneLine(file.value);
              var item := Item(id, title, w.now, content, Thumbnail(info), Some(problem));
              Outcome(Success(item), Save(table, item, w.putFails), SrcSteps)
  }

  /** A stored record is reported as a duplicate before any download, and the
      table is left alone. */
  lemma DuplicateStopsBeforeDownload(url: string, w: World, table: Table, problem: int)
    requires ExtractVideoId(url).Some? && w.info.Some? && !w.lookupFails
    requires Key(ExtractVideoId(url).value, Title(w.info.value)) in table
    ensures Run(url, w, table, problem) == Outcome(Failure(Duplicated), table, [FetchInfo, LookUp])
  {
  }

  /** A missing title falls back to the default one. */
  lemma UntitledVideoGetsDefault(url: string, w: World, table: Table, problem: int)
    requires w.info.Some? && "title" !in w.info.value
    requires Run(url, w, table, problem).result.Success?
    ensures Run(url, w, table, problem).result.value.title == DefaultTitle
  {
  }

  /** Unlike app.py, an empty metadata object is accepted. */
  lemma EmptyMetadataAccepted(url: string, w: World, table: Table, problem: int)
    requires ExtractVideoId(url).Some? && w.info == Some(map[])
    ensures Run(url, w, table, problem).result != Failure(MetadataFailed)
  {
  }

  /** The pipeline succeeds exactly when every step does. */
  lemma SucceedsIffEveryStepDoes(url: string, w: World, table: Table, problem: int)
    ensures Run(url, w, table, problem).result.Success? <==>
      && ExtractVideoId(url).Some?
      && w.info.Some?
      && var id := ExtractVideoId(url).value;
      && !Exists(table, id, Title(w.info.value), w.lookupFails)
      && Locate(w.tool, w.listing, id).Success?
      && ProcessVtt(ReadFile(w.files, Locate(w.tool, w.listing, id).value)).Success?
  {
  }

  /** When the src/ pipeline stores a record, the app.py handler given the
      same inputs (and a non-empty metadata object) passes every check before
      its first write and stores the same captions. */
  lemma PipelinesAgreeOnCaptions(url: string, w: World, table: Table, problem: int, bucket: Archive.Bucket)
    requires w.url == Some(url) && w.info.Some? && |w.info.value| > 0
    requires Run(url, w, table, problem).result.Success?
    ensures Submit.ReadyToSave(w, Submit.Stores(table, bucket))
    ensures Submit.Location(w).error.None?
    ensures Submit.Content(w) == Run(url, w, table, problem).result.value.content
  {
    var id := ExtractVideoId(url).value;
    LocateVariantsAgree(w.tool, w.listing, id);
    var file := ReadFile(w.files, Locate(w.tool, w.listing, id).value);
    Captions.VariantsAgree(file);
  }
}

=== FILE: records.dfy ===
/** The primary record store (`check_video_exists_in_dynamodb` and
    `save_to_dynamodb` in app.py, `DynamoDB` in src/storage.py).

    Records are keyed by the pair (video id, title), the key the lookup uses.
    A write replaces any record under the same key. Both operations swallow
    store errors: a failed lookup answers "absent" and a failed write leaves
    the table as it was. Whether the store fails is an input. */
module Records {
  import opened Wrappers

  /** One stored record. The thumbnail and the problem number are written by
      the src/ pipeline only. */
  datatype Item = Item(
    videoId: string,
    title: string,
    datetime: string,
    content: string,
    thumbnail: Option<string>,
    problem: Option<int>)

  datatype Key = Key(videoId: string, title: string)

  type Table = map<Key, Item>

  function KeyOf(item: Item): Key {
    Key(item.videoId, item.title)
  }

  /** `'Item' in response`, with any exception answering `False`. */
  function Exists(table: Table, videoId: string, title: string, fails: bool): bool
  {
    if fails then false else Key(videoId, title) in table
  }

  /** `put_item`, with any exception only logged. */
  function Save(table: Table, item: Item, fails: bool): (r: Table)
    ensures fails ==> r == table
    ensures !fails ==> KeyOf(item) in r && r[KeyOf(item)] == item
    ensures !fails ==> r.Keys == table.Keys + {KeyOf(item)}
    ensures forall k | k in table && k != KeyOf(item) :: k in r && r[k] == table[k]
  {
    if fails then table else table[KeyOf(item) := item]
  }

  /** A record that was saved is found again, unless the lookup fails. */
  lemma SaveThenExists(table: Table, item: Item, lookupFails: bool)
    ensures Exists(Save(table, item, false), item.videoId, item.title, lookupFails) <==> !lookupFails
  {
  }

  /** Saving adds exactly its own key to what a lookup can find. */
  lemma SaveFindsOnlyItsKey(table: Table, item: Item, putFails: bool, videoId: string, title: string, lookupFails: bool)
    ensures Exists(Save(table, item, putFails), videoId, title, lookupFails) <==>
      Exists(table, videoId, title, lookupFails) ||
      (!putFails && !lookupFails && Key(videoId, title) == KeyOf(item))
  {
  }

  /** A failing lookup cannot be told apart from a missing record. */
  lemma LookupErrorLooksAbsent(table: Table, videoId: string, title: string)
    ensures Exists(table, videoId, title, true) == Exists(map[], videoId, title, false) == false
  {
  }

  /** The same video under a different title is a different record. */
  lemma TitleIsPartOfKey(table: Table, item: Item, otherTitle: string)
    requires otherTitle != item.title && Key(item.videoId, otherTitle) !in table
    ensures !Exists(Save(table, item, false), item.videoId, otherTitle, false)
  {
  }

  /** Saving twice under one key keeps the second record only. */
  lemma SaveOverwrites(table: Table, a: Item, b: Item)
    requires KeyOf(a) == KeyOf(b)
    ensures Save(Save(table, a, false), b, false) == Save(table, b, false)
  {
  }
}

=== FILE: strings.dfy ===
/** The few Python `str` operations the pipeline relies on: `in`, `startswith`,
    `endswith`, `strip`, `replace`, `split` and `join`, each defined once over
    `seq<char>` and characterised by its contract. */
module Strings {
  import opened Wrappers

  /** The characters for which Python's `str.isspace()` holds; `str.strip()`
      with no argument removes exactly these from both ends. */
  const Whitespace: set<char> := {
    '\t', '\n', '\U{0B}', '\U{0C}', '\r', '\U{1C}', '\U{1D}', '\U{1E}', '\U{1F}', ' ',
    '\U{85}', '\U{A0}', '\U{1680}',
    '\U{2000}', '\U{2001}', '\U{2002}', '\U{2003}', '\U{2004}', '\U{2005}',
    '\U{2006}', '\U{2007}', '\U{2008}', '\U{2009}', '\U{200A}',
    '\U{2028}', '\U{2029}', '\U{202F}', '\U{205F}', '\U{3000}'
  }

  predicate IsSpace(c: char) {
    c in Whitespace
  }

  /** `pat` occurs in `s` at index `i`. */
  predicate OccursAt(s: string, pat: string, i: int) {
    0 <= i && i + |pat| <= |s| && s[i..i + |pat|] == pat
  }

  /** Python's `pat in s` for two strings. */
  predicate Contains(s: string, pat: string) {
    exists i | 0 <= i <= |s| :: OccursAt(s, pat, i)
  }

  /** A string lacking the first character of `pat` does not contain it. */
  lemma NotContainedWithoutHead(s: string, pat: string)
    requires pat != [] && pat[0] !in s
    ensures !Contains(s, pat)
  {
    forall i | 0 <= i <= |s|
      ensures !OccursAt(s, pat, i)
    {
      if i < |s| && i + |pat| <= |s| {
        assert s[i] in s;
        assert s[i..i + |pat|][0] == s[i];
      }
    }
  }

  /** Python's `s.startswith(p)`. */
  predicate StartsWith(s: string, p: string) {
    |p| <= |s| && s[..|p|] == p
  }

  /** Python's `s.endswith(p)`. */
  predicate EndsWith(s: string, p: string) {
    |p| <= |s| && s[|s| - |p|..] == p
  }

  /** Position of the first `c` in `s` (Python's `s.find(c)`, with `None` for -1). */
  function IndexOf(s: string, c: char): (r: Option<nat>)
    ensures r.Some? ==> r.value < |s| && s[r.value] == c && c !in s[..r.value]
    ensures r.None? ==> c !in s
  {
    if s == [] then None
    else if s[0] == c then Some(0)
    else
      match IndexOf(s[1..], c)
      case None => None
      case Some(k) => Some(k + 1)
  }

  /** The first occurrence of `c` in `a + [c] + b` is the one after `a` when `a` has none. */
  lemma IndexOfAfter(a: string, c: char, b: string)
    requires c !in a
    ensures IndexOf(a + [c] + b, c) == Some(|a|)
  {
    var s := a + [c] + b;
    assert s[|a|] == c;
  }

  // ---------------------------------------------------------------------------
  // strip

  /** `r` is what remains of `s` once leading and trailing whitespace is
      removed, taken from position `lo` of `s`. */
  ghost predicate StrippedAt(s: string, lo: int, r: string) {
    && 0 <= lo && lo + |r| <= |s|
    && r == s[lo..lo + |r|]
    && (forall i | 0 <= i < lo :: IsSpace(s[i]))
    && (forall i | lo + |r| <= i < |s| :: IsSpace(s[i]))
    && (r != [] ==> !IsSpace(r[0]) && !IsSpace(r[|r| - 1]))
  }

  /** `s.lstrip()`. */
  function TrimStart(s: string): string {
    if s != [] && IsSpace(s[0]) then TrimStart(s[1..]) else s
  }

  /** `s.rstrip()`. */
  function TrimEnd(s: string): string {
    if s != [] && IsSpace(s[|s| - 1]) then TrimEnd(s[..|s| - 1]) else s
  }

  /** `lstrip` removes the leading whitespace and nothing else. */
  lemma {:induction false} TrimStartSpec(s: string)
    ensures var r := TrimStart(s);
      && |r| <= |s| && r == s[|s| - |r|..]
      && (forall i | 0 <= i < |s| - |r| :: IsSpace(s[i]))
      && (r != [] ==> !IsSpace(r[0]))
  {
    if s != [] && IsSpace(s[0]) {
      TrimStartSpec(s[1..]);
      var r := TrimStart(s[1..]);
      assert forall i | 1 <= i < |s| - |r| :: s[i] == s[1..][i - 1];
    }
  }

  /** `rstrip` removes the trailing whitespace and nothing else. */
  lemma {:induction false} TrimEndSpec(s: string)
    ensures var r := TrimEnd(s);
      && |r| <= |s| && r == s[..|r|]
      && (forall i | |r| <= i < |s| :: IsSpace(s[i]))
      && (r != [] ==> !IsSpace(r[|r| - 1]))
  {
    if s != [] && IsSpace(s[|s| - 1]) {
      TrimEndSpec(s[..|s| - 1]);
    }
  }

  /** Python's `s.strip()`. */
  function Strip(s: string): string {
    TrimEnd(TrimStart(s))
  }

  /** `strip` removes exactly the leading and trailing whitespace. */
  lemma StripRemovesOuterSpace(s: string)
    ensures StrippedAt(s, |s| - |TrimStart(s)|, Strip(s))
  {
    TrimStartSpec(s);
    TrimEndSpec(TrimStart(s));
    TrimEndStripsTrimmed(s, TrimStart(s));
  }

  lemma TrimEndStripsTrimmed(s: string, t: string)
    requires |t| <= |s| && t == s[|s| - |t|..]
    requires forall i | 0 <= i < |s| - |t| :: IsSpace(s[i])
    requires t != [] ==> !IsSpace(t[0])
    ensures StrippedAt(s, |s| - |t|, TrimEnd(t))
  {
    TrimEndSpec(t);
    var r := TrimEnd(t);
    var lo := |s| - |t|;
    assert r == s[lo..lo + |r|];
    assert forall i | lo + |r| <= i < |s| :: s[i] == t[i - lo];
  }

  /** Stripping is determined by its characterisation: the first and last
      non-space characters fix both ends. */
  lemma StrippedAtUnique(s: string, lo1: int, r1: string, lo2: int, r2: string)
    requires StrippedAt(s, lo1, r1) && StrippedAt(s, lo2, r2)
    ensures r1 == r2
  {
    if r1 != [] && r2 != [] {
      assert s[lo1] == r1[0] && s[lo2] == r2[0];
      assert lo1 == lo2;
      assert s[lo1 + |r1| - 1] == r1[|r1| - 1] && s[lo2 + |r2| - 1] == r2[|r2| - 1];
      assert |r1| == |r2|;
    }
  }

  /** `strip` leaves a string alone when neither end is whitespace. */
  lemma StripKeepsTrimmed(s: string)
    requires s != [] ==> !IsSpace(s[0]) && !IsSpace(s[|s| - 1])
    ensures Strip(s) == s
  {
    StripRemovesOuterSpace(s);
    assert StrippedAt(s, 0, s);
    StrippedAtUnique(s, 0, s, |s| - |TrimStart(s)|, Strip(s));
  }

  /** Every character `strip` keeps was in its argument. */
  lemma StripChars(s: string, c: char)
    requires c in Strip(s)
    ensures c in s
  {
    var r := Strip(s);
    StripRemovesOuterSpace(s);
    var lo := |s| - |TrimStart(s)|;
    var k :| 0 <= k < |r| && r[k] == c;
    assert s[lo + k] == c;
  }

  lemma StrippedAtExtend(s: string, lo: int, r: string, w: char)
    requires StrippedAt(s, lo, r) && IsSpace(w)
    ensures StrippedAt(s + [w], lo, r)
  {
    var t := s + [w];
    assert r == t[lo..lo + |r|];
    assert forall i | 0 <= i < |s| :: t[i] == s[i];
  }

  /** A trailing whitespace character makes no difference to `strip`. */
  lemma StripIgnoresTrailingSpace(s: string, w: char)
    requires IsSpace(w)
    ensures Strip(s + [w]) == Strip(s)
  {
    var t := s + [w];
    StripRemovesOuterSpace(s);
    StrippedAtExtend(s, |s| - |TrimStart(s)|, Strip(s), w);
    StripRemovesOuterSpace(t);
    StrippedAtUnique(t, |s| - |TrimStart(s)|, Strip(s), |t| - |TrimStart(t)|, Strip(t));
  }

  /** `strip` gives the empty string exactly when every character is whitespace. */
  lemma StripEmptyIff(s: string)
    ensures Strip(s) == [] <==> forall i | 0 <= i < |s| :: IsSpace(s[i])
  {
    var r := Strip(s);
    StripRemovesOuterSpace(s);
    var lo := |s| - |TrimStart(s)|;
    if r != [] {
      assert s[lo] == r[0];
    }
  }

  // ---------------------------------------------------------------------------
  // join and split

  /** Sum of the lengths of `parts`. */
  function TotalLength(parts: seq<string>): nat {
    if parts == [] then 0 else |parts[0]| + TotalLength(parts[1..])
  }

  /** Python's `sep.join(parts)` for a one-character separator. */
  function Join(parts: seq<string>, sep: char): (s: string)
    ensures |parts| == 0 ==> s == []
    ensures |parts| > 0 ==> |s| == TotalLength(parts) + |parts| - 1
    ensures |parts| > 0 ==> StartsWith(s, parts[0])
  {
    if |parts| == 0 then []
    else if |parts| == 1 then parts[0]
    else parts[0] + [sep] + Join(parts[1..], sep)
  }

  lemma JoinTwo(a: string, b: string, sep: char)
    ensures Join([a, b], sep) == a + [sep] + b
  {
    assert [a, b][1..] == [b];
  }

  /** A joined string is empty exactly when there are no parts, or one empty part. */
  lemma {:induction false} JoinEmptyIff(parts: seq<string>, sep: char)
    ensures Join(parts, sep) == [] <==> |parts| == 0 || (|parts| == 1 && parts[0] == [])
  {
    if |parts| > 1 {
      assert |Join(parts, sep)| >= 1;
    }
  }

  /** Every character of a joined string is the separator or comes from a part. */
  lemma {:induction false} JoinChars(parts: seq<string>, sep: char, c: char)
    requires c in Join(parts, sep)
    ensures c == sep || exists k | 0 <= k < |parts| :: c in parts[k]
  {
    if |parts| == 1 {
      assert c in parts[0];
    } else if |parts| > 1 {
      var s := Join(parts, sep);
      assert s == parts[0] + [sep] + Join(parts[1..], sep);
      if c in parts[0] {
      } else if c != sep {
        assert c in Join(parts[1..], sep);
        JoinChars(parts[1..], sep, c);
        var k :| 0 <= k < |parts[1..]| && c in parts[1..][k];
        assert c in parts[k + 1];
      }
    }
  }

  /** Every character of every part appears in the joined string. */
  lemma {:induction false} JoinKeepsPartChars(parts: seq<string>, sep: char, k: int, c: char)
    requires 0 <= k < |parts| && c in parts[k]
    ensures c in Join(parts, sep)
  {
    if |parts| > 1 {
      assert Join(parts, sep) == parts[0] + [sep] + Join(parts[1..], sep);
      if k > 0 {
        assert parts[1..][k - 1] == parts[k];
        JoinKeepsPartChars(parts[1..], sep, k - 1, c);
      }
    }
  }

  /** Python's `s.split(sep)` for a one-character separator: the pieces between
      the separators, so that joining them back gives `s`. */
  function Split(s: string, sep: char): (parts: seq<string>)
    ensures |parts| >= 1
    ensures forall k | 0 <= k < |parts| :: sep !in parts[k]
    ensures Join(parts, sep) == s
    decreases |s|
  {
    match IndexOf(s, sep)
    case None => [s]
    case Some(k) =>
      var rest := Split(s[k + 1..], sep);
      assert s == s[..k] + [sep] + s[k + 1..];
      [s[..k]] + rest
  }

  /** A separator-free head splits off at the first separator. */
  lemma SplitAtFirst(a: string, sep: char, tail: string)
    requires sep !in a
    ensures Split(a + [sep] + tail, sep) == [a] + Split(tail, sep)
  {
    var s := a + [sep] + tail;
    IndexOfAfter(a, sep, tail);
    assert s[..|a|] == a;
    assert s[|a| + 1..] == tail;
  }

  /** Splitting undoes joining when no part contains the separator. */
  lemma {:induction false} SplitJoin(parts: seq<string>, sep: char)
    requires |parts| >= 1
    requires forall k | 0 <= k < |parts| :: sep !in parts[k]
    ensures Split(Join(parts, sep), sep) == parts
  {
    if |parts| > 1 {
      var tail := Join(parts[1..], sep);
      assert Join(parts, sep) == parts[0] + [sep] + tail;
      SplitAtFirst(parts[0], sep, tail);
      SplitJoin(parts[1..], sep);
      assert parts == [parts[0]] + parts[1..];
    } else {
      assert sep !in parts[0];
      assert IndexOf(parts[0], sep).None?;
    }
  }

  // ---------------------------------------------------------------------------
  // replace

  /** Python's `s.replace(pat, rep)`: every non-overlapping occurrence of
      `pat`, scanning left to right, is replaced. */
  function ReplaceAll(s: string, pat: string, rep: string): (r: string)
    requires pat != []
    ensures !Contains(s, pat) ==> r == s
    decreases |s|
  {
    if |s| < |pat| then s
    else if s[..|pat|] == pat then
      assert OccursAt(s, pat, 0);
      rep + ReplaceAll(s[|pat|..], pat, rep)
    else
      var rest := ReplaceAll(s[1..], pat, rep);
      assert !Contains(s, pat) ==> !Contains(s[1..], pat) by {
        if Contains(s[1..], pat) {
          var i :| 0 <= i <= |s[1..]| && OccursAt(s[1..], pat, i);
          assert s[i + 1..i + 1 + |pat|] == s[1..][i..i + |pat|];
          assert OccursAt(s, pat, i + 1);
        }
      }
      [s[0]] + rest
  }

  /** A prefix that cannot start an occurrence of `pat` passes through
      `replace` unchanged. */
  lemma {:induction false} ReplaceAllPrefix(a: string, b: string, pat: string, rep: string)
    requires pat != [] && pat[0] !in a
    ensures ReplaceAll(a + b, pat, rep) == a + ReplaceAll(b, pat, rep)
    decreases |a|
  {
    if a != [] {
      var s := a + b;
      if |s| >= |pat| {
        assert s[..|pat|][0] != pat[0];
        assert s[1..] == a[1..] + b;
        ReplaceAllPrefix(a[1..], b, pat, rep);
        assert a == [a[0]] + a[1..];
      } else {
        assert ReplaceAll(s, pat, rep) == s;
        assert ReplaceAll(b, pat, rep) == b;
      }
    } else {
      assert a + b == b;
    }
  }

  /** Replacing a single character works position by position. */
  lemma {:induction false} ReplaceCharPointwise(s: string, c: char, d: char)
    ensures |ReplaceAll(s, [c], [d])| == |s|
    ensures forall i | 0 <= i < |s| :: ReplaceAll(s, [c], [d])[i] == if s[i] == c then d else s[i]
    decreases |s|
  {
    if s != [] {
      ReplaceCharPointwise(s[1..], c, d);
      var rest := ReplaceAll(s[1..], [c], [d]);
      assert ReplaceAll(s, [c], [d]) == [if s[0] == c then d else s[0]] + rest;
    }
  }
}

=== FILE: submit.dfy ===
/** The request handler of app.py (`index`): one submitted URL runs through
    id extraction, metadata, the duplicate check, caption download, caption
    normalisation and the two saves, stopping at the first failure with a
    message for the user.

    The handler checks the download error by truthiness (`if error:`). When the
    tool exits non-zero with nothing on stderr, the error is the empty string,
    the test fails, and the missing path reaches `open(None)`, which raises a
    `TypeError` the handler does not catch. `Index` keeps that behaviour;
    `IndexIntended` tests the error for presence instead. */
module Submit {
  import opened Wrappers
  import opened VideoId
  import opened Captions
  import opened CaptionFile
  import opened Archive
  import opened Records
  import opened Flow

  datatype Stores = Stores(table: Table, bucket: Bucket)

  /** What the handler answers. Each reply but the last is a fixed message
      (with the tool's error text for `SubtitleError`); `ServerError` is an
      exception escaping the handler. */
  datatype Reply =
    | MissingUrl
    | InvalidUrl
    | InfoFailed
    | AlreadyStored
    | SubtitleError(detail: string)
    | NoCaptions
    | Completed
    | ServerError

  datatype Outcome = Outcome(reply: Reply, stores: Stores, calls: seq<Call>)

  /** How the handler decides that the download failed. */
  datatype ErrorTest =
    | Truthiness  // `if error:` as written
    | Presence    // `if error is not None`

  predicate Reports(test: ErrorTest, error: Option<string>) {
    match test
    case Truthiness => error.Some? && error.value != []
    case Presence => error.Some?
  }

  // ---------------------------------------------------------------------------
  // The stages the inputs pass through

  predicate HasUrl(w: World) {
    w.url.Some? && w.url.value != []
  }

  predicate Resolves(w: World) {
    HasUrl(w) && ExtractVideoId(w.url.value).Some?
  }

  function Id(w: World): string
    requires Resolves(w)
  {
    ExtractVideoId(w.url.value).value
  }

  /** `not video_info` fails for a missing and for an empty object. */
  predicate HasInfo(w: World) {
    Resolves(w) && w.info.Some? && |w.info.value| > 0
  }

  function TitleOf(w: World): string
    requires HasInfo(w)
  {
    Title(w.info.value)
  }

  predicate IsNew(w: World, s: Stores) {
    HasInfo(w) && !Exists(s.table, Id(w), TitleOf(w), w.lookupFails)
  }

  function Location(w: World): Located
    requires Resolves(w)
  {
    LocateApp(w.tool, w.listing, Id(w))
  }

  predicate Found(w: World, s: Stores) {
    IsNew(w, s) && Location(w).path.Some?
  }

  function Content(w: World): string
    requires Resolves(w) && Location(w).path.Some?
  {
    ProcessVttApp(ReadFile(w.files, Location(w).path.value))
  }

  /** Every check before the first write passes. */
  predicate ReadyToSave(w: World, s: Stores) {
    Found(w, s) && Content(w) != []
  }

  function Record(w: World): Item
    requires Resolves(w) && HasInfo(w) && Location(w).path.Some?
  {
    Item(Id(w), TitleOf(w), w.now, Content(w), None, None)
  }

  // ---------------------------------------------------------------------------
  // The handler

  function Handle(w: World, s: Stores, test: ErrorTest): (r: Outcome)
    ensures r.calls <= Steps
    ensures r.stores != s ==> ReadyToSave(w, s)
    ensures ReadyToSave(w, s) && !Reports(test, Location(w).error) ==>
      r.stores.table == Save(s.table, Record(w), w.putFails) && r.calls == Steps
    ensures r.reply == Completed <==>
      ReadyToSave(w, s) && !Reports(test, Location(w).error) &&
      !w.archiveFaults.readFails && !w.archiveFaults.putFails
    ensures r.reply == Completed ==>
      var saved := SaveToS3(s.bucket, Id(w), TitleOf(w), w.now, Content(w), w.archiveFaults);
      saved.Success? && r.stores.bucket == saved.value
    ensures r.reply == MissingUrl <==> !HasUrl(w)
    ensures r.reply == InvalidUrl <==> HasUrl(w) && !Resolves(w)
    ensures r.reply == InfoFailed <==> Resolves(w) && !HasInfo(w)
    ensures r.reply == AlreadyStored <==> HasInfo(w) && !IsNew(w, s)
    ensures r.reply == MissingUrl || r.reply == InvalidUrl ==> r.calls == []
    ensures r.reply == InfoFailed ==> r.calls == Steps[..1]
    ensures r.reply == AlreadyStored ==> !w.lookupFails && r.calls == Steps[..2]
    ensures r.reply.SubtitleError? ==> r.calls == Steps[..3] && Reports(test, Location(w).error)
    ensures r.reply == NoCaptions ==> r.calls == Steps[..4]
    ensures r.reply != Completed ==> r.stores.bucket == s.bucket
    ensures r.reply.SubtitleError? <==> IsNew(w, s) && Reports(test, Location(w).error)
    ensures r.reply.SubtitleError? ==> r.reply.detail == Location(w).error.value
    ensures r.reply == NoCaptions <==>
      Found(w, s) && !Reports(test, Location(w).error) && Content(w) == []
  {
    if !HasUrl(w) then Outcome(MissingUrl, s, [])
    else if !Resolves(w) then Outcome(InvalidUrl, s, [])
    else if !HasInfo(w) then Outcome(InfoFailed, s, Steps[..1])
    else if !IsNew(w, s) then Outcome(AlreadyStored, s, Steps[..2])
    else
      var located := Location(w);
      if Reports(test, located.error) then Outcome(SubtitleError(located.error.value), s, Steps[..3])
      else if located.path.None? then Outcome(ServerError, s, Steps[..3])
      else if Content(w) == [] then Outcome(NoCaptions, s, Steps[..4])
      else
        var id, title, content := Id(w), TitleOf(w), Content(w);
        var table := Save(s.table, Record(w), w.putFails);
        match SaveToS3(s.bucket, id, title, w.now, content, w.archiveFaults)
        case Failure(_) => Outcome(ServerError, Stores(table, s.bucket), Steps)
        case Success(bucket) => Outcome(Completed, Stores(table, bucket), Steps)
  }

  /** `index` as written. */
  function Index(w: World, s: Stores): Outcome {
    Handle(w, s, Truthiness)
  }

  /** `index` with the download error checked for presence. */
  function IndexIntended(w: World, s: Stores): Outcome {
    Handle(w, s, Presence)
  }

  // ---------------------------------------------------------------------------
  // Properties

  /** Metadata with no string fields is still a non-empty object: the
      handler goes on, under the default title. */
  lemma OpaqueMetadataAccepted(w: World, s: Stores)
    requires Resolves(w) && w.info == Some(map["duration" := NonText])
    ensures Index(w, s).reply != InfoFailed
    ensures HasInfo(w) && TitleOf(w) == DefaultTitle
  {
  }

  /** A failing lookup is never reported as a duplicate. */
  lemma LookupErrorNeverDuplicate(w: World, s: Stores)
    requires w.lookupFails
    ensures Index(w, s).reply != AlreadyStored
  {
  }

  /** A failed record write is swallowed: the archive is still written and
      the user still sees success, with the table unchanged. */
  lemma RecordWriteFailureSwallowed(w: World, s: Stores)
    requires ReadyToSave(w, s) && Location(w).error.None? && w.putFails
    requires !w.archiveFaults.readFails && !w.archiveFaults.putFails
    ensures Index(w, s).reply == Completed
    ensures Index(w, s).stores.table == s.table
    ensures Index(w, s).stores.bucket ==
      SaveToS3(s.bucket, Id(w), TitleOf(w), w.now, Content(w), w.archiveFaults).value
  {
  }

  /** An archive fault escapes as a server error after the record is saved. */
  lemma ArchiveFaultAfterRecord(w: World, s: Stores)
    requires ReadyToSave(w, s) && Location(w).error.None? && !w.putFails
    requires w.archiveFaults.readFails || w.archiveFaults.putFails
    ensures Index(w, s).reply == ServerError
    ensures Index(w, s).stores == Stores(Save(s.table, Record(w), false), s.bucket)
  {
  }

  /** Submitting the same video again, once it is stored, is a duplicate. */
  lemma SecondSubmissionIsDuplicate(w: World, s: Stores)
    requires Index(w, s).reply == Completed && !w.putFails && !w.lookupFails
    ensures Index(w, Index(w, s).stores).reply == AlreadyStored
  {
    var s' := Index(w, s).stores;
    SaveThenExists(s.table, Record(w), false);
    assert s'.table == Save(s.table, Record(w), false);
  }

  /** As written: a tool failure with an empty stderr passes the error test
      and crashes on the missing path, writing nothing. */
  lemma SilentToolFailureCrashes(w: World, s: Stores)
    requires IsNew(w, s) && w.tool.exitCode != 0 && w.tool.stderr == []
    ensures Index(w, s).reply == ServerError && Index(w, s).stores == s
  {
  }

  /** Intended: every tool failure is reported with its error text. */
  lemma ToolFailureReported(w: World, s: Stores)
    requires IsNew(w, s) && w.tool.exitCode != 0
    ensures IndexIntended(w, s).reply == SubtitleError(w.tool.stderr)
    ensures IndexIntended(w, s).stores == s
  {
  }

  /** The two error tests differ on exactly the silent tool failure. */
  lemma IndexAgreesWithIntended(w: World, s: Stores)
    ensures Index(w, s) != IndexIntended(w, s) <==>
      IsNew(w, s) && w.tool.exitCode != 0 && w.tool.stderr == []
  {
  }

  /** The content the handler archives never holds a newline, so embedding
      it raw (as app.py does) writes the same object as flattening it first
      (as src/storage.py does). */
  lemma ArchivedContentIsFlat(w: World, s: Stores)
    requires ReadyToSave(w, s)
    ensures '\n' !in Content(w)
    ensures SaveToS3(s.bucket, Id(w), TitleOf(w), w.now, Content(w), w.archiveFaults) ==
      S3SaveTo(s.bucket, Id(w), TitleOf(w), w.now, Content(w), w.archiveFaults)
  {
    var file := ReadFile(w.files, Location(w).path.value);
    if file.Some? {
      NormalisedIsOneLine(file.value);
    }
    SaveVariantsAgreeOnOneLine(s.bucket, Id(w), TitleOf(w), w.now, Content(w), w.archiveFaults);
  }
}

=== FILE: video_id.dfy ===
/** Resolving a YouTube URL to its video id (`extract_video_id`, app.py).

    Two regular expressions are tried in order with `re.search`:
      `(?:https?:\/\/)?(?:www\.)?youtube\.com\/watch\?v=([^&]+)`
      `(?:https?:\/\/)?youtu\.be\/([^?\n]+)`
    Each is a fixed literal followed by a captured, greedy, non-empty run of
    characters outside a stop set. The optional scheme and `www.` prefixes never
    change the capture: they contain no `y`, the first letter of both literals,
    so the leftmost match of the whole expression is the one whose literal sits
    at the first position where the literal occurs AND is followed by an allowed
    character. That is what is modelled here; no regex engine is. */
module VideoId {
  import opened Wrappers
  import opened Strings

  /** One accepted URL shape: a literal, then the id, the longest non-empty run
      of characters outside `stops`. */
  datatype Pattern = Pattern(literal: string, stops: set<char>)

  /** The watch-page form; the id runs up to the first `&`. */
  const Watch := Pattern("youtube.com/watch?v=", {'&'})

  /** The short-link form; the id runs up to the first `?` or newline. */
  const Short := Pattern("youtu.be/", {'?', '\n'})

  /** Length of the longest prefix of `s` free of `stops` (a greedy `[^...]*`). */
  function RunLength(s: string, stops: set<char>): (n: nat)
    ensures n <= |s|
    ensures forall j | 0 <= j < n :: s[j] !in stops
    ensures n < |s| ==> s[n] in stops
  {
    if s == [] || s[0] in stops then 0 else 1 + RunLength(s[1..], stops)
  }

  /** The pattern matches with its literal at index `i` of `url`. */
  predicate MatchesAt(url: string, p: Pattern, i: int) {
    OccursAt(url, p.literal, i) && i + |p.literal| < |url| && url[i + |p.literal|] !in p.stops
  }

  ghost predicate MatchesSomewhere(url: string, p: Pattern) {
    exists i | 0 <= i <= |url| :: MatchesAt(url, p, i)
  }

  /** `id` is what group 1 captures for a match at `i`: it directly follows the
      literal, is non-empty, holds no stop character and cannot be extended. */
  ghost predicate Captures(url: string, p: Pattern, i: int, id: string) {
    && OccursAt(url, p.literal, i)
    && var k := i + |p.literal|;
    && k + |id| <= |url|
    && id == url[k..k + |id|]
    && id != []
    && (forall j | 0 <= j < |id| :: id[j] !in p.stops)
    && (k + |id| == |url| || url[k + |id|] in p.stops)
  }

  /** The leftmost match position at or after `from`. */
  function FirstMatch(url: string, p: Pattern, from: nat): (r: Option<nat>)
    requires from <= |url|
    ensures r.Some? ==> from <= r.value <= |url| && MatchesAt(url, p, r.value)
    ensures r.Some? ==> forall j | from <= j < r.value :: !MatchesAt(url, p, j)
    ensures r.None? ==> forall j | from <= j <= |url| :: !MatchesAt(url, p, j)
    decreases |url| - from
  {
    if MatchesAt(url, p, from) then Some(from)
    else if from == |url| then None
    else FirstMatch(url, p, from + 1)
  }

  /** `re.search(p, url).group(1)`, or `None` when there is no match. */
  function Search(url: string, p: Pattern): (r: Option<string>)
    ensures r.None? <==> !MatchesSomewhere(url, p)
    ensures r.Some? ==> FirstMatch(url, p, 0).Some? && Captures(url, p, FirstMatch(url, p, 0).value, r.value)
  {
    match FirstMatch(url, p, 0)
    case None => None
    case Some(i) =>
      var k := i + |p.literal|;
      Some(url[k..k + RunLength(url[k..], p.stops)])
  }

  /** `extract_video_id`: the watch form is tried first, then the short form. */
  function ExtractVideoId(url: string): (r: Option<string>)
    ensures r.None? <==> !MatchesSomewhere(url, Watch) && !MatchesSomewhere(url, Short)
    ensures r.Some? ==> r.value != []
    ensures MatchesSomewhere(url, Watch) ==>
      r.Some? && Captures(url, Watch, FirstMatch(url, Watch, 0).value, r.value) && '&' !in r.value
    ensures !MatchesSomewhere(url, Watch) && MatchesSomewhere(url, Short) ==>
      r.Some? && Captures(url, Short, FirstMatch(url, Short, 0).value, r.value)
      && '?' !in r.value && '\n' !in r.value
  {
    match Search(url, Watch)
    case Some(id) => Some(id)
    case None => Search(url, Short)
  }

  /** A match of `p` at `i` spells out the literal from `i` on. */
  lemma MatchSpellsLiteral(url: string, p: Pattern, i: int, j: int)
    ensures MatchesAt(url, p, i) && 0 <= j < |p.literal| ==> url[i + j] == p.literal[j]
  {
    if MatchesAt(url, p, i) && 0 <= j < |p.literal| {
      assert url[i..i + |p.literal|][j] == url[i + j];
    }
  }

  lemma {:induction false} RunLengthStopsAtTail(id: string, tail: string, stops: set<char>)
    requires forall j | 0 <= j < |id| :: id[j] !in stops
    requires tail == [] || tail[0] in stops
    ensures RunLength(id + tail, stops) == |id|
  {
    if id != [] {
      assert (id + tail)[1..] == id[1..] + tail;
      RunLengthStopsAtTail(id[1..], tail, stops);
    } else {
      assert id + tail == tail;
    }
  }

  /** A URL built as `prefix + literal + id + tail`, where `prefix` cannot start
      the literal and `tail` starts with a stop character (or is empty), yields
      exactly `id`. */
  lemma {:induction false} SearchAfterPrefix(prefix: string, p: Pattern, id: string, tail: string)
    requires p.literal != [] && p.literal[0] !in prefix
    requires id != [] && forall j | 0 <= j < |id| :: id[j] !in p.stops
    requires tail == [] || tail[0] in p.stops
    ensures Search(prefix + p.literal + id + tail, p) == Some(id)
  {
    var lit := p.literal;
    var url := prefix + lit + id + tail;
    var k0 := |prefix|;
    var k := k0 + |lit|;
    assert url == (prefix + lit) + (id + tail);
    assert url[k0..k] == (prefix + lit)[k0..];
    assert url[k] == id[0];
    assert MatchesAt(url, p, k0);
    forall j | 0 <= j < k0
      ensures !MatchesAt(url, p, j)
    {
      MatchSpellsLiteral(url, p, j, 0);
      assert url[j] == prefix[j];
    }
    var first := FirstMatch(url, p, 0);
    assert first == Some(k0);
    var rest := url[k..];
    assert rest == id + tail;
    RunLengthStopsAtTail(id, tail, p.stops);
    var n := RunLength(rest, p.stops);
    assert url[k..k + n] == id;
  }

  /** A URL without some letter of a literal has no match of that literal. */
  lemma NoMatchWithoutLetter(url: string, p: Pattern, c: char)
    requires c in p.literal && c !in url
    ensures !MatchesSomewhere(url, p)
  {
  }

  /** The scheme and host every watch URL starts with. */
  const WatchHost := "https://www."

  /** Parameters after the id do not change it: `...watch?v=ID` and
      `...watch?v=ID&anything` both resolve to `ID`. */
  lemma {:induction false} WatchIdIgnoresTrailingParameters(id: string, rest: string)
    requires id != [] && '&' !in id
    ensures ExtractVideoId(WatchHost + Watch.literal + id) == Some(id)
    ensures ExtractVideoId(WatchHost + Watch.literal + id + ("&" + rest)) == Some(id)
  {
    assert 'y' !in WatchHost;
    SearchAfterPrefix(WatchHost, Watch, id, []);
    assert WatchHost + Watch.literal + id + [] == WatchHost + Watch.literal + id;
    SearchAfterPrefix(WatchHost, Watch, id, "&" + rest);
  }

  /** In `a + b + c`, when letter `y` heads `b` and occurs nowhere else, the
      only index holding `y` is `|a|`. */
  lemma LetterOnlyAt(a: string, b: string, c: string, y: char)
    requires y !in a && b != [] && b[0] == y && y !in b[1..] && y !in c
    ensures forall i | 0 <= i < |a + b + c| && (a + b + c)[i] == y :: i == |a|
  {
    var u := a + b + c;
    assert forall i | 0 <= i < |a| :: u[i] == a[i];
    assert forall i | |a| < i < |a| + |b| :: u[i] == b[1..][i - |a| - 1];
    assert forall i | |a| + |b| <= i < |u| :: u[i] == c[i - |a| - |b|];
  }

  /** The path of the watch page, up to its query string. */
  const WatchPath := "youtube.com/watch?"

  /** The watch form needs `v` to be the first query parameter: a query that
      starts with any other parameter (and holds no `y`) resolves to nothing. */
  lemma {:induction false} WatchNeedsVFirst(query: string)
    requires 'y' !in query && !StartsWith(query, "v=")
    ensures ExtractVideoId(WatchHost + WatchPath + query) == None
  {
    var url := WatchHost + WatchPath + query;
    assert 'y' !in WatchHost;
    assert 'y' !in WatchPath[1..];
    LetterOnlyAt(WatchHost, WatchPath, query, 'y');
    assert url[17] == 'b';
    assert forall k | 30 <= k < |url| :: url[k] == query[k - 30];
    assert |query| >= 2 ==> query[0] != 'v' || query[1] != '=';
    forall i | 0 <= i <= |url|
      ensures !MatchesAt(url, Watch, i) && !MatchesAt(url, Short, i)
    {
      NoMatchBesideQuery(url, query, i);
    }
  }

  /** The position-by-position argument behind `WatchNeedsVFirst`: the only
      `y` is at 12, where `youtu.be/` fails on the `b` at 17 and the watch
      literal fails on the query's first two characters. */
  lemma NoMatchBesideQuery(url: string, query: string, i: int)
    requires |url| == 30 + |query| && url[17] == 'b'
    requires forall k | 0 <= k < |url| && url[k] == 'y' :: k == 12
    requires forall k | 30 <= k < |url| :: url[k] == query[k - 30]
    requires |query| >= 2 ==> query[0] != 'v' || query[1] != '='
    ensures !MatchesAt(url, Watch, i) && !MatchesAt(url, Short, i)
  {
    MatchSpellsLiteral(url, Watch, i, 0);
    MatchSpellsLiteral(url, Watch, i, 18);
    MatchSpellsLiteral(url, Watch, i, 19);
    MatchSpellsLiteral(url, Short, i, 0);
    MatchSpellsLiteral(url, Short, i, 5);
  }

  /** A typical watch-page URL with a trailing parameter. */
  lemma WatchExample()
    ensures ExtractVideoId(WatchHost + Watch.literal + "abc123" + ("&" + "list=xyz")) == Some("abc123")
  {
    WatchIdIgnoresTrailingParameters("abc123", "list=xyz");
  }

  /** A short link resolves to the run after `youtu.be/`, whatever query
      follows it, once the watch form has matched nowhere. */
  lemma ShortLinkResolves(prefix: string, id: string, tail: string)
    requires 'y' !in prefix && !MatchesSomewhere(prefix + Short.literal + id + tail, Watch)
    requires id != [] && '?' !in id && '\n' !in id
    requires tail == [] || tail[0] == '?'
    ensures ExtractVideoId(prefix + Short.literal + id + tail) == Some(id)
  {
    SearchAfterPrefix(prefix, Short, id, tail);
  }

  /** A letter of the watch form that the short form lacks. */
  predicate WatchOnly(c: char)
  {
    c in Watch.literal && c !in Short.literal
  }

  /** The watch form cannot match a URL that lacks one of its letters, so
      such a short link always resolves through the short form. */
  lemma ShortLinkWithoutLetter(prefix: string, id: string, tail: string, c: char)
    requires WatchOnly(c)
    requires 'y' !in prefix && c !in prefix && c !in id && c !in tail
    requires id != [] && '?' !in id && '\n' !in id
    requires tail == [] || tail[0] == '?'
    ensures ExtractVideoId(prefix + Short.literal + id + tail) == Some(id)
  {
    var url := prefix + Short.literal + id + tail;
    assert c !in url;
    NoMatchWithoutLetter(url, Watch, c);
    ShortLinkResolves(prefix, id, tail);
  }

  /** The letters the two examples below rely on. */
  lemma WatchOnlyW()
    ensures WatchOnly('w')
  {
    assert Watch.literal[12] == 'w';
  }

  lemma WatchOnlyM()
    ensures WatchOnly('m')
  {
    assert Watch.literal[10] == 'm';
  }

  lemma ShortExample()
    ensures ExtractVideoId("https://" + Short.literal + "abc123" + "?t=10") == Some("abc123")
  {
    WatchOnlyW();
    ShortLinkWithoutLetter("https://", "abc123", "?t=10", 'w');
  }

  /** An id holding `w` resolves too: the watch form still fails, here for
      lack of an `m`. */
  lemma ShortExampleWithW()
    ensures ExtractVideoId("https://" + Short.literal + "dQw4w9WgXcQ" + []) == Some("dQw4w9WgXcQ")
  {
    WatchOnlyM();
    ShortLinkWithoutLetter("https://", "dQw4w9WgXcQ", [], 'm');
  }

  /** Reordering the query loses the id. */
  lemma ParameterOrderMatters()
    ensures ExtractVideoId(WatchHost + WatchPath + "list=PL1&v=abc123") == None
  {
    assert "list=PL1&v=abc123"[1] != '=';
    WatchNeedsVFirst("list=PL1&v=abc123");
  }
}

=== FILE: wrappers.dfy ===
/** Option and Result, the shapes this model uses for Python's `None` returns
    and raised exceptions. */
module Wrappers {

  datatype Option<+T> = None | Some(value: T) {
    function GetOr(default: T): T {
      match this
      case Some(v) => v
      case None => default
    }
  }

  datatype Result<+R, +E> = Success(value: R) | Failure(error: E)
}
